=== FILE: README.md ===
# Campus navigation core, modelled in Dafny

This project models the algorithmic core of a campus navigation web
application and proves properties about it. The model has four parts:

- **The routing engine.**
  - `buildGraph` turns building records and path records into graph nodes. Each path gives two directional connections, available when the path's status is `open`.
  - A `PathFinder` indexes the nodes by id.
  - `findShortestPath` is a Dijkstra search. It uses a linear minimum scan, skips unavailable connections, and has a 1.5× penalty hook for connections judged not accessible.
  - `updatePathStatus` sets the given availability on the first `from`→`to` and the first `to`→`from` connection.
  - `findAlternativeRoutes` returns only the primary route.
- **The virtual tour's `locationsToNodes`.** Each location becomes a panorama node, with arrows to its neighbours in list order.
- **The security log's `detectSuspiciousActivity`.** It is a substring test against four fixed patterns.
- **The resource directory's filter.** It matches the query case-insensitively and filters by category, and the page shows "X of Y" counts.

## Layout

| file | module | models |
|---|---|---|
| `optional.dfy` | `Optional` | `null`/`undefined` as `None` |
| `strings.dfy` | `Strings` | `String.prototype.includes`, ASCII `toLowerCase`/`toUpperCase` |
| `campus_graph.dfy` | `CampusGraph` | `GraphNode` and its connections, edge weights with the accessibility penalty, walks over available connections |
| `dijkstra.dfy` | `Dijkstra` | the search loop and the path reconstruction of `findShortestPath` |
| `path_status.dfy` | `PathStatus` | `updatePathStatus` as a functional update of the node map |
| `graph_builder.dfy` | `GraphBuilder` | `buildGraph` |
| `path_finder.dfy` | `PathFinding` | the `PathFinder` class: constructor, `findShortestPath`, `findAlternativeRoutes`, `updatePathStatus`, `PathResult` |
| `virtual_tour.dfy` | `VirtualTour` | `locationsToNodes` |
| `security_log.dfy` | `SecurityLog` | `detectSuspiciousActivity` |
| `resource_directory.dfy` | `ResourceDirectory` | `filteredResources` and the "Showing X of Y" count |

## Modelling decisions

- **Numbers.** Distances and coordinates are `real`. Floating-point rounding is not modelled.
- **Infinity and null.** Infinity is a key missing from the distance map. A `null` predecessor is a key missing from the predecessor map.
- **The accessibility hook.** The penalty is a parameter of the query: a flag plus a predicate on node pairs. `PathFinder` carries the predicate. `AlwaysAccessible` is the source's always-true placeholder, and with it the penalty never applies (`PreferAccessibleIsNeutral`).
- **The minimum scan.** The source scans a JavaScript `Set`. The model picks any unvisited node of least distance and keeps the strict `<`. It does not model `Set` iteration order, so ties may be broken differently.
- **Quirks kept as the code has them:**
  - The start id is seeded with distance 0 even when it names no node.
  - A query whose start equals its destination returns `null`. The loop stops at once, because the destination is the closest node, and the destination has no predecessor.
  - Path reconstruction treats an empty-string predecessor as the end of the chain (`|| null`). So three route facts are proved only when no node has the empty id: the route starts at the start node, it has at least two nodes, and its distance is its own weight. Take a route S → "" → E: the reconstruction stops at E and returns the one-node route `[E]`, whose distance is the full distance to E.
  - `updatePathStatus` changes only the first matching connection in each direction (`find`).
  - The returned `distance` is `distances.get(endId)`, the penalised total (lib/pathfinding.ts:111). So `FindShortestPath`'s distance is the walk weight with the penalty included.
  - Several buildings with the same id all get nodes, but every connection goes to the last of them (the id map is overwritten). The `PathFinder` index also keeps the last of them.
- **Lower-casing** is ASCII-only. `Lower` and `Upper` fold only `A`–`Z` and `a`–`z`.

## Model

| member | source | states |
|---|---|---|
| `CampusGraph.EdgeWeight` | lib/pathfinding.ts:74-81 | a connection weighs 1.5 times its distance when accessible routes are preferred and its target is a node the predicate judges not accessible from its source, and exactly its distance whenever the penalty is off or every connection is judged accessible |
| `CampusGraph.PenaltyNeverShortens` | lib/pathfinding.ts:74-81 | with non-negative distances, a walk weighs no more with the preference off than with it on |
| `CampusGraph.PrefixWeightBound` | lib/pathfinding.ts:74-83 | with non-negative distances, a walk weighs at least as much as any of its prefixes, which is what lets the closest unvisited node be final |
| `CampusGraph.PenaltyFreeWalkWeight` | lib/pathfinding.ts:74-81 | when the penalty is off or every connection is accessible, two preferences weigh every walk alike |
| `CampusGraph.PrependWalk` | lib/pathfinding.ts:63-88 | a hop followed by a walk is a walk, and its weight is the hop's weight plus the rest |
| `Dijkstra.ClosestUnvisited` | lib/pathfinding.ts:39-53 | no node is chosen exactly when every unvisited node is still at infinity; otherwise the chosen node is unvisited, reached, and no unvisited node is strictly closer |
| `Dijkstra.ClosestIsOptimal` | lib/pathfinding.ts:43-59 | with non-negative distances, the closest unvisited node's distance is at most the weight of every walk from the start to it |
| `Dijkstra.WalksStaySettled` | lib/pathfinding.ts:51-53 | when no unvisited node is reached, every walk from the settled start ends at a settled node, so nothing more is reachable |
| `Dijkstra.ChainWalk` | lib/pathfinding.ts:83-88 | following predecessors back from any reached node gives a walk from the start over available connections that weighs exactly the node's distance |
| `Dijkstra.SettleEntry` | lib/pathfinding.ts:59-60 | removing the closest node other than the destination from the unvisited set keeps the search invariant |
| `Dijkstra.RelaxStep` | lib/pathfinding.ts:83-88 | lowering an unvisited neighbour's distance through the node being settled keeps every distance the weight of a predecessor walk, and keeps settled distances optimal |
| `Dijkstra.RelaxSkip` | lib/pathfinding.ts:64-71 | an unavailable connection, or one to a visited node, or one that offers no shorter distance, needs no update |
| `Dijkstra.RelaxConnection` | lib/pathfinding.ts:63-88 | handling one connection of the settled node keeps the search invariant and extends the set of relaxed connections by that one |
| `Dijkstra.RelaxNeighbours` | lib/pathfinding.ts:63-89 | after the neighbour loop, every available connection of every settled node to an unvisited node is relaxed |
| `Dijkstra.Settle` | lib/pathfinding.ts:59-89 | one round of the main loop keeps the invariant and shrinks the unvisited set |
| `Dijkstra.Search` | lib/pathfinding.ts:26-90 | on exit, distances and predecessors describe real walks, settled distances are optimal, and either nothing unvisited is reached or the destination is the closest unvisited node |
| `Dijkstra.TracePath` | lib/pathfinding.ts:97-103 | following `NextBack`, the step of line 102 that treats a missing or empty predecessor as the end, the reconstructed path is a walk over available connections ending at the destination, weighing its distance minus that of its first node; if no node has the empty id, it starts at the start and has at least two nodes |
| `Dijkstra.NoPredecessorNoRoute` | lib/pathfinding.ts:36-95 | a destination left without a predecessor means the start equals it, the start is no node, or no walk leads there |
| `Dijkstra.PredecessorMeansRoute` | lib/pathfinding.ts:83-95 | a destination with a predecessor means the start is a different node that reaches it |
| `Dijkstra.PredecessorMeansShortest` | lib/pathfinding.ts:38-90 | with non-negative distances, a destination with a predecessor has a distance no walk from the start undercuts |
| `PathStatus.FirstConnectionTo` | lib/pathfinding.ts:128 | the position `find` returns: the first connection to the target, or none when no connection leads there |
| `PathStatus.SetFirstAvailability` | lib/pathfinding.ts:128-131 | only the first connection to the target changes, and only in its availability |
| `PathStatus.UpdateHalf` | lib/pathfinding.ts:126-132 | one half of the update (and, with the roles swapped, lines 135-141): the same node ids; in the `from` node, if present, only the first connection to `to` changes, and only in its availability, which becomes the given one; every other node is unchanged |
| `PathStatus.UpdateGraph` | lib/pathfinding.ts:125-142 | the same nodes; the first `from`→`to` and the first `to`→`from` connections get the new availability; every other connection, and every distance and path id, is unchanged |
| `PathStatus.LastUpdateWins` | lib/pathfinding.ts:125-142 | two updates of the same pair equal the second one alone |
| `PathStatus.UpdateIdempotent` | lib/pathfinding.ts:125-142 | repeating an update with the same availability changes nothing more |
| `PathStatus.UpdateToCurrentIsNoop` | lib/pathfinding.ts:125-142 | setting the availability the targeted connections already have leaves the graph unchanged |
| `PathStatus.CloseThenReopenRestores` | lib/pathfinding.ts:125-142 | closing an open segment and reopening it restores the graph exactly |
| `PathStatus.UnknownSegmentIsNoop` | lib/pathfinding.ts:126-141 | a missing node or missing connection in both directions makes the update a no-op |
| `PathStatus.UpdateSetsBothDirections` | lib/pathfinding.ts:125-142 | for a pair joined by one connection each way, both directions get the new availability |
| `PathStatus.UpdateKeepsSynchronized` | lib/pathfinding.ts:125-142 | if every single segment's two directions agree before an update, they agree after it |
| `PathStatus.TowardSetFirst` | lib/pathfinding.ts:128-130 | setting the availability of the first connection to a node (the one `find` returns) changes, among the connections to any node, only the first one to that node, and only its availability |
| `PathStatus.TowardAfterUpdate` | lib/pathfinding.ts:125-142 | between two distinct nodes, an update changes the connections from one to the other only for the updated pair, and then only the first one's availability |
| `PathStatus.UpdateKeepsMirrored` | lib/pathfinding.ts:125-142 | if, between every two distinct nodes, the connections each way agree position by position, they still do after an update, parallel segments included |
| `PathStatus.MirroredIsSynchronized` | lib/pathfinding.ts:125-142 | when the connections each way agree position by position, both directions of every single segment agree |
| `PathStatus.ClosedSegmentHasNoHop` | lib/pathfinding.ts:125-142 | after closing a pair with at most one connection each way, no available hop joins the two nodes in either direction |
| `GraphBuilder.BuildGraph` | lib/pathfinding.ts:170-210 | one node per building, in order, with id and building id equal to the building's id and its location; the last node of each id holds exactly the reference connections of the segments, and every other node holds none |
| `GraphBuilder.RegisterBuildings` | lib/pathfinding.ts:175-184 | after the building loop, there is one node per building with its id and location and no connections, and the id map sends every building id to its last building |
| `GraphBuilder.ConnectSegments` | lib/pathfinding.ts:187-207 | starting from unconnected nodes, the segment loop leaves the last node of each id holding exactly the reference connections of all segments, and every other node holding none |
| `GraphBuilder.AddSegment` | lib/pathfinding.ts:187-207 | one round of the segment loop keeps every node wired: the forward connection goes to the `from` node and the reverse one to the `to` node, when both are known |
| `GraphBuilder.NodeStep` | lib/pathfinding.ts:187-207 | appending to a node what the id map sends it keeps the node wired, one segment further |
| `GraphBuilder.IndexStep` | lib/pathfinding.ts:175-184 | registering the next building keeps every id in the map pointing at its last building so far |
| `GraphBuilder.ReverseMirrorsForward` | lib/pathfinding.ts:192-205 | the reverse connection of a segment is its forward connection retargeted at `from`, so the two agree in availability, distance and path id |
| `GraphBuilder.SegmentConnectionsSound` | lib/pathfinding.ts:187-207 | every connection of a node comes from a segment with both endpoints known that starts or ends at the node |
| `GraphBuilder.SegmentConnectionsComplete` | lib/pathfinding.ts:187-207 | every segment with both endpoints known gives its forward connection to `from` and its reverse connection to `to` |
| `GraphBuilder.SegmentAppendsOnePerEndpoint` | lib/pathfinding.ts:190-207 | a further segment between two known buildings appends exactly one connection to each endpoint and nothing elsewhere |
| `GraphBuilder.UnknownEndpointAddsNothing` | lib/pathfinding.ts:187-190 | a segment with an endpoint that names no building adds no connection anywhere |
| `GraphBuilder.ConnectionsMirror` | lib/pathfinding.ts:192-205 | between two distinct buildings, the connections each way come in the same order with the same distance, id and availability |
| `GraphBuilder.BuiltGraphSynchronized` | lib/pathfinding.ts:187-207 | in the built graph, both directions of every single segment agree |
| `GraphBuilder.BuiltMirrored` | lib/pathfinding.ts:187-207 | in the built graph, between every two distinct buildings, the connections each way agree position by position in availability, distance and path id |
| `PathFinding.WalkingMinutes` | lib/pathfinding.ts:112 | the time is the least whole number of minutes in which the distance is walked at 80 m/min |
| `PathFinding.IndexNodes` | lib/pathfinding.ts:14-19 | the index has exactly the node ids as keys, and each key maps to a node with that id |
| `PathFinding.LastNodeWins` | lib/pathfinding.ts:16-18 | the node the index keeps for an id is the last node in the list carrying it |
| `PathFinding.IndexedNodeIsLast` | lib/pathfinding.ts:16-18 | every key of the index belongs to a node that no later node shares its id with |
| `PathFinding.NewPathFinder` | lib/pathfinding.ts:14-19 | the engine indexes exactly the node ids, keeps for each id the last node carrying it, and starts with the always-true accessibility predicate |
| `PathFinding.FindShortestPath` | lib/pathfinding.ts:25-120 | no route exactly when start equals destination, the start is no node, or nothing leads there; otherwise the route ends at the destination, joins consecutive nodes by available connections, and has one waypoint per node with its position; its time is the rounded-up walking time; its distance is attained by a walk from the start and, with non-negative distances, undercut by none; without an empty node id it starts at the start |
| `PathFinding.FindAlternativeRoutes` | lib/pathfinding.ts:147-158 | at most one route; none exactly when the shortest-path query finds none; the one route, like the result of a query without the accessibility preference, ends at the destination over available connections, has a distance attained by a walk from the start and, with non-negative distances, undercut by none, and without an empty node id starts at the start |
| `PathFinding.AlwaysAccessible` | lib/pathfinding.ts:160-164 | the placeholder judges every connection accessible, so the penalty never applies (see `PreferAccessibleIsNeutral`) |
| `PathFinding.UpdatePathStatus` | lib/pathfinding.ts:125-142 | the engine keeps its nodes and accessibility predicate; the first `from`→`to` and first `to`→`from` connections get the new availability; every other connection, and every distance and path id, is unchanged |
| `PathFinding.PreferAccessibleNeverShorter` | lib/pathfinding.ts:25-120 | preferring accessible routes finds a route exactly when the plain query does and, with non-negative distances, never returns a shorter distance |
| `PathFinding.PreferAccessibleIsNeutral` | lib/pathfinding.ts:74-81 | with an accessibility predicate that accepts everything, preferring accessible routes changes neither whether a route exists nor, for non-negative distances, its distance |
| `PathFinding.RouteAfterClosing` | lib/pathfinding.ts:125-142 | after closing a pair joined by at most one connection each way, no returned route steps directly between the two nodes |
| `PathFinding.LoadCampus` | lib/pathfinding.ts:14-19 | the engine over the built nodes has one entry per building id holding exactly that building's reference connections; between every two distinct buildings the connections each way agree position by position, so both directions of every segment, single or parallel, agree |
| `VirtualTour.LocationsToNodes` | app/tour/page.tsx:26-44 | one node per location, in order, carrying its id, image as panorama, thumbnail, name and hotspots as markers; its arrows come from `NeighbourLinks` (lines 34-41), whose content `BackLink`, `ForwardLink` and `LinkCount` state |
| `VirtualTour.BackLink` | app/tour/page.tsx:35-37 | among the arrows `NeighbourLinks` gives, a node has an arrow at yaw `180deg` exactly when it is not the first, and that arrow comes first and leads to the previous location |
| `VirtualTour.ForwardLink` | app/tour/page.tsx:38-40 | a node has an arrow at yaw `0deg` exactly when it is not the last, and that arrow comes last and leads to the next location |
| `VirtualTour.LinkCount` | app/tour/page.tsx:34-41 | one arrow per neighbour, at most two, the back arrow before the forward one, none for a single location |
| `VirtualTour.LinksIffAdjacent` | app/tour/page.tsx:35-40 | with distinct ids, node i links to node j exactly when they are adjacent in the list |
| `VirtualTour.LinksAreSymmetric` | app/tour/page.tsx:35-40 | with distinct ids, node i links to node j exactly when node j links to node i |
| `Strings.Includes` | app/api/security/log/route.ts:45 | `includes` holds exactly when the pattern occurs at some position of the string |
| `SecurityLog.AnyIncluded` | app/api/security/log/route.ts:45 | `some` over the patterns holds exactly when one of them occurs in the string |
| `SecurityLog.DetectSuspiciousActivity` | app/api/security/log/route.ts:37-46 | suspicious exactly when one of the four patterns occurs, case-sensitively, in the activity type |
| `SecurityLog.PatternsAreFlagged` | app/api/security/log/route.ts:38-43 | each of the four patterns is itself flagged |
| `SecurityLog.FlaggedIsMonotone` | app/api/security/log/route.ts:45 | every string containing a flagged string is flagged |
| `SecurityLog.ShortNeverFlagged` | app/api/security/log/route.ts:38-45 | strings shorter than 16 characters, the empty one included, are never flagged |
| `SecurityLog.NoLowerCaseNeverFlagged` | app/api/security/log/route.ts:45 | a string without lower-case letters is never flagged, since every pattern begins with one |
| `SecurityLog.UpperCaseRecordingNotFlagged` | app/api/security/log/route.ts:39 | `SCREEN_RECORDING_DETECTED` is not flagged |
| `Strings.LowerIdempotent` | app/resources/page.tsx:120-122 | lower-casing an already lower-cased string changes nothing |
| `Strings.LowerOfUpper` | app/resources/page.tsx:120-122 | lower-casing forgets any earlier upper-casing |
| `ResourceDirectory.Keeps` | app/resources/page.tsx:119-125 | a resource is kept exactly when the lower-cased query occurs in its lower-cased name, description or building, and the category is `all` or its own |
| `ResourceDirectory.FilterResources` | app/resources/page.tsx:119-125 | the shown resources are exactly those that pass, each as often as in the full list; there are no more of them than resources, the "X of Y" of line 191; with a category selected, all of them have it |
| `ResourceDirectory.FilterIsSubsequence` | app/resources/page.tsx:119 | the shown resources keep their original order: they embed in the full list at increasing positions |
| `ResourceDirectory.EmptyQueryKeepsEverything` | app/resources/page.tsx:120-124 | with an empty query and category `all`, every resource is shown |
| `ResourceDirectory.QueryCaseInsensitive` | app/resources/page.tsx:120-122 | two queries that agree once lower-cased show the same resources |
| `ResourceDirectory.UpperCaseQuerySameResult` | app/resources/page.tsx:120-122 | typing the query in capitals shows the same resources |

## Left out

- Floating-point arithmetic: distances, coordinates and the 1.5× penalty are exact reals, and `Infinity` is absence from a map.
- The iteration order of JavaScript `Map` and `Set`. The minimum scan may pick any unvisited node of least distance, so with non-negative distances routes may differ from the source's only among equally short ones; with negative distances the returned distance may differ too.
- The real accessibility judgement. The source's `isAccessibleConnection` is a placeholder that always says yes; the model takes any predicate, and `AlwaysAccessible` is the placeholder.
- In-place mutation and object identity. Node objects shared between `buildGraph`'s list and the engine's map are modelled by value, through the last-id-wins rule both maps follow.
- `findAlternativeRoutes`' `maxRoutes` argument: the source never reads it, so the model takes it and ignores it.
- Building and path record fields that `buildGraph` does not read (names, codes, points, accessibility flags, estimated times and so on). The `closed`/`construction` statuses differ only in being not `open`.
- Unicode case mapping: `toLowerCase` is modelled on ASCII letters only.
- React rendering, state hooks and JSX throughout the pages; the `fetch` of the tour's location file; the map page's route calculation, which never calls the engine; the map and panorama viewer components; the screen-protection component; the HTTP handlers around the security log and the admin path API; the admin page's local status toggle; static configuration.
- `PathFinding.FindShortestPath`: three facts are stated only when no node has the empty id: the route starts at the start node, it has at least two nodes, and its distance is its own weight. As written, an empty-string predecessor ends the reconstruction early, so the route may start later and may be a single node. It then weighs its distance minus that of its first node, as the `Dijkstra.TracePath` row states.
- `PathStatus.UpdateKeepsMirrored`: the invariant is stated between distinct nodes only. A segment from a building to itself gives that building two connections to itself, and the update's two `find` calls both hit the first of them, so the second falls out of step; the model keeps that behaviour and does not claim agreement there.
- `VirtualTour.LinksIffAdjacent`: adjacency, and so symmetry, is stated for lists of distinct ids. With repeated ids, an arrow identifies its target only by id.

=== FILE: campus_graph.dfy ===
/**
  The routing graph of the campus navigator: nodes keyed by id, each holding an
  ordered list of directed connections, and the walks a route may take over
  the available connections.
 */
module CampusGraph {

  /** A geographic coordinate; only copied into route waypoints, never used for cost. */
  datatype Position = Position(lat: real, lng: real)

  /** One directed connection from its owning node to `nodeId`. */
  datatype Connection = Connection(nodeId: string, distance: real, pathId: string, isAvailable: bool)

  datatype GraphNode = GraphNode(id: string, buildingId: string, position: Position, connections: seq<Connection>)

  /** The engine's index from node id to node. */
  type Graph = map<string, GraphNode>

  /**
    How a query weighs connections: whether the caller prefers accessible
    routes, and the predicate that decides whether a connection between two
    nodes is accessible.
   */
  datatype Preference = Preference(preferAccessible: bool, accessible: (GraphNode, GraphNode) -> bool)

  /** Factor applied to a non-accessible connection when accessible routes are preferred. */
  const AccessibilityPenalty: real := 1.5

  /** The weight the search gives to connection `c` leaving node `from`. */
  function EdgeWeight(g: Graph, from: GraphNode, c: Connection, pref: Preference): (w: real)
    ensures w == c.distance || w == c.distance * AccessibilityPenalty
    ensures PenaltyFree(pref) ==> w == c.distance
    ensures pref.preferAccessible && c.nodeId in g && !pref.accessible(from, g[c.nodeId]) ==> w == c.distance * AccessibilityPenalty
  {
    if pref.preferAccessible && c.nodeId in g && !pref.accessible(from, g[c.nodeId]) then
      c.distance * AccessibilityPenalty
    else
      c.distance
  }

  /** Connection `i` of node `u` is available and leads to the node `v` of the graph. */
  predicate IsHop(g: Graph, u: string, i: nat, v: string)
  {
    && u in g
    && v in g
    && i < |g[u].connections|
    && g[u].connections[i].nodeId == v
    && g[u].connections[i].isAvailable
  }

  function HopWeight(g: Graph, pref: Preference, u: string, i: nat): real
    requires u in g && i < |g[u].connections|
  {
    EdgeWeight(g, g[u], g[u].connections[i], pref)
  }

  /** `p` is a sequence of node ids and `hops[k]` the connection taken from `p[k]` to `p[k + 1]`. */
  ghost predicate IsWalk(g: Graph, p: seq<string>, hops: seq<nat>)
  {
    && |p| == |hops| + 1
    && forall k :: 0 <= k < |hops| ==> IsHop(g, p[k], hops[k], p[k + 1])
  }

  /** The total weight of a walk, accumulated from its first hop to its last. */
  ghost function WalkWeight(g: Graph, pref: Preference, p: seq<string>, hops: seq<nat>): real
    requires IsWalk(g, p, hops)
    decreases |hops|
  {
    if |hops| == 0 then
      0.0
    else
      assert IsWalk(g, p[..|p| - 1], hops[..|hops| - 1]);
      assert IsHop(g, p[|p| - 2], hops[|hops| - 1], p[|p| - 1]);
      WalkWeight(g, pref, p[..|p| - 1], hops[..|hops| - 1]) + HopWeight(g, pref, p[|p| - 2], hops[|hops| - 1])
  }

  /** Some walk over available connections leads from `s` to `e`. */
  ghost predicate Reachable(g: Graph, s: string, e: string)
  {
    exists p, hops :: IsWalk(g, p, hops) && p[0] == s && p[|p| - 1] == e
  }

  /** Every connection has a non-negative distance. */
  ghost predicate NonNegative(g: Graph)
  {
    forall u, i :: u in g && 0 <= i < |g[u].connections| ==> g[u].connections[i].distance >= 0.0
  }

  /** The preference never inflates a weight: either it is off or every connection is accessible. */
  ghost predicate PenaltyFree(pref: Preference)
  {
    !pref.preferAccessible || forall a, b :: pref.accessible(a, b)
  }

  lemma HopWeightNonNegative(g: Graph, pref: Preference, u: string, i: nat)
    requires NonNegative(g)
    requires u in g && i < |g[u].connections|
    ensures HopWeight(g, pref, u, i) >= 0.0
  {
    assert g[u].connections[i].distance >= 0.0;
  }

  /** With no penalty in play a hop weighs exactly its connection's distance. */
  lemma PenaltyFreeHop(g: Graph, pref: Preference, u: string, i: nat)
    requires PenaltyFree(pref)
    requires u in g && i < |g[u].connections|
    ensures HopWeight(g, pref, u, i) == g[u].connections[i].distance
  {
  }

  /** The first `n` nodes of a walk form a walk. */
  lemma PrefixWalk(g: Graph, p: seq<string>, hops: seq<nat>, n: nat)
    requires IsWalk(g, p, hops)
    requires 1 <= n <= |p|
    ensures IsWalk(g, p[..n], hops[..n - 1])
  {
  }

  /** A walk extended by one more hop out of its last node. */
  lemma ExtendWalk(g: Graph, pref: Preference, p: seq<string>, hops: seq<nat>, i: nat, v: string)
    requires IsWalk(g, p, hops)
    requires IsHop(g, p[|p| - 1], i, v)
    ensures IsWalk(g, p + [v], hops + [i])
    ensures WalkWeight(g, pref, p + [v], hops + [i]) == WalkWeight(g, pref, p, hops) + HopWeight(g, pref, p[|p| - 1], i)
  {
    var p', hops' := p + [v], hops + [i];
    assert p'[..|p'| - 1] == p;
    assert hops'[..|hops'| - 1] == hops;
  }

  /** A walk preceded by one hop into its first node. */
  lemma {:induction false} PrependWalk(g: Graph, pref: Preference, u: string, i: nat, p: seq<string>, hops: seq<nat>)
    requires IsWalk(g, p, hops)
    requires IsHop(g, u, i, p[0])
    ensures IsWalk(g, [u] + p, [i] + hops)
    ensures WalkWeight(g, pref, [u] + p, [i] + hops) == HopWeight(g, pref, u, i) + WalkWeight(g, pref, p, hops)
    decreases |hops|
  {
    var p', hops' := [u] + p, [i] + hops;
    assert IsWalk(g, p', hops') by {
      forall k | 0 <= k < |hops'|
        ensures IsHop(g, p'[k], hops'[k], p'[k + 1])
      {
        if k > 0 {
          assert IsHop(g, p[k - 1], hops[k - 1], p[k]);
        }
      }
    }
    if |hops| > 0 {
      var q, qh := p[..|p| - 1], hops[..|hops| - 1];
      PrefixWalk(g, p, hops, |p| - 1);
      PrependWalk(g, pref, u, i, q, qh);
      assert p'[..|p'| - 1] == [u] + q;
      assert hops'[..|hops'| - 1] == [i] + qh;
    }
  }

  /** With non-negative distances a prefix of a walk weighs no more than the walk. */
  lemma {:induction false} PrefixWeightBound(g: Graph, pref: Preference, p: seq<string>, hops: seq<nat>, n: nat)
    requires NonNegative(g)
    requires IsWalk(g, p, hops)
    requires 1 <= n <= |p|
    ensures IsWalk(g, p[..n], hops[..n - 1])
    ensures WalkWeight(g, pref, p[..n], hops[..n - 1]) <= WalkWeight(g, pref, p, hops)
    decreases |p|
  {
    PrefixWalk(g, p, hops, n);
    if n < |p| {
      var q, qh := p[..|p| - 1], hops[..|hops| - 1];
      PrefixWalk(g, p, hops, |p| - 1);
      PrefixWeightBound(g, pref, q, qh, n);
      assert q[..n] == p[..n];
      assert qh[..n - 1] == hops[..n - 1];
      assert IsHop(g, p[|p| - 2], hops[|hops| - 1], p[|p| - 1]);
      HopWeightNonNegative(g, pref, p[|p| - 2], hops[|hops| - 1]);
    } else {
      assert p[..n] == p;
      assert hops[..n - 1] == hops;
    }
  }

  /** Two penalty-free preferences weigh every walk alike. */
  lemma {:induction false} PenaltyFreeWalkWeight(g: Graph, pref1: Preference, pref2: Preference, p: seq<string>, hops: seq<nat>)
    requires PenaltyFree(pref1) && PenaltyFree(pref2)
    requires IsWalk(g, p, hops)
    ensures WalkWeight(g, pref1, p, hops) == WalkWeight(g, pref2, p, hops)
    decreases |hops|
  {
    if |hops| > 0 {
      PrefixWalk(g, p, hops, |p| - 1);
      PenaltyFreeWalkWeight(g, pref1, pref2, p[..|p| - 1], hops[..|hops| - 1]);
      assert IsHop(g, p[|p| - 2], hops[|hops| - 1], p[|p| - 1]);
      PenaltyFreeHop(g, pref1, p[|p| - 2], hops[|hops| - 1]);
      PenaltyFreeHop(g, pref2, p[|p| - 2], hops[|hops| - 1]);
    }
  }

  /** With non-negative distances, turning the accessibility preference off never makes a hop heavier. */
  lemma PenaltyNeverLightensHop(g: Graph, pref: Preference, u: string, i: nat)
    requires NonNegative(g)
    requires u in g && i < |g[u].connections|
    ensures HopWeight(g, pref.(preferAccessible := false), u, i) <= HopWeight(g, pref, u, i)
  {
    assert g[u].connections[i].distance >= 0.0;
  }

  /** With non-negative distances, a walk weighs no more without the accessibility preference than with it. */
  lemma {:induction false} PenaltyNeverShortens(g: Graph, pref: Preference, p: seq<string>, hops: seq<nat>)
    requires NonNegative(g)
    requires IsWalk(g, p, hops)
    ensures WalkWeight(g, pref.(preferAccessible := false), p, hops) <= WalkWeight(g, pref, p, hops)
    decreases |hops|
  {
    if |hops| > 0 {
      PrefixWalk(g, p, hops, |p| - 1);
      PenaltyNeverShortens(g, pref, p[..|p| - 1], hops[..|hops| - 1]);
      assert IsHop(g, p[|p| - 2], hops[|hops| - 1], p[|p| - 1]);
      PenaltyNeverLightensHop(g, pref, p[|p| - 2], hops[|hops| - 1]);
    }
  }
}

=== FILE: dijkstra.dfy ===
/**
  The search behind `PathFinder.findShortestPath`: Dijkstra's algorithm with a
  linear scan for the closest unvisited node, skipping unavailable
  connections, followed by the walk back along recorded predecessors.

  Tentative distances live in `dist`; a node missing from `dist` is at
  distance infinity. `prev` records predecessors; a node missing from `prev`
  has the predecessor `null`. The ghost maps `via` (which connection reached a
  node), `rank` (the order in which nodes were settled) and the counter
  `count` exist only for the proofs.
 */
module Dijkstra {
  import opened Optional
  import opened CampusGraph

  /** Nodes of the graph that the search has taken out of the unvisited set. */
  function Settled(g: Graph, unvisited: set<string>): set<string>
  {
    g.Keys - unvisited
  }

  /** `c` has the smallest finite tentative distance among the unvisited nodes. */
  predicate IsClosest(dist: map<string, real>, unvisited: set<string>, c: string)
  {
    && c in unvisited
    && c in dist
    && forall v :: v in unvisited && v in dist ==> dist[c] <= dist[v]
  }

  /** The predecessor of `v` is settled and reached `v` over connection `via[v]`, which accounts for `dist[v]`. */
  ghost predicate PredecessorStep(g: Graph, pref: Preference, dist: map<string, real>, prev: map<string, string>,
                                  via: map<string, nat>, settled: set<string>, v: string)
    requires v in prev
  {
    && v in via
    && v in dist
    && prev[v] in settled
    && prev[v] in dist
    && IsHop(g, prev[v], via[v], v)
    && dist[v] == dist[prev[v]] + HopWeight(g, pref, prev[v], via[v])
  }

  /** Every available connection out of `from` into an unvisited node has been relaxed. */
  ghost predicate Relaxed(g: Graph, pref: Preference, dist: map<string, real>, unvisited: set<string>, from: set<string>)
  {
    forall u, i, v :: u in from && IsHop(g, u, i, v) && v in unvisited ==>
      u in dist && v in dist && dist[v] <= dist[u] + HopWeight(g, pref, u, i)
  }

  /** The first `n` connections of `c` have been relaxed. */
  ghost predicate RelaxedUpTo(g: Graph, pref: Preference, dist: map<string, real>, unvisited: set<string>, c: string, n: nat)
  {
    && c in g
    && c in dist
    && forall i, v :: 0 <= i < n && IsHop(g, c, i, v) && v in unvisited ==>
         v in dist && dist[v] <= dist[c] + HopWeight(g, pref, c, i)
  }

  /** No walk from `start` to a settled node is shorter than that node's distance. */
  ghost predicate SettledOptimal(g: Graph, pref: Preference, start: string, dist: map<string, real>, settled: set<string>)
  {
    forall p, hops :: IsWalk(g, p, hops) && p[0] == start && p[|p| - 1] in settled && p[|p| - 1] in dist ==>
      dist[p[|p| - 1]] <= WalkWeight(g, pref, p, hops)
  }

  /** Which nodes carry a distance and a predecessor. */
  ghost predicate Frame(g: Graph, start: string, end: string,
                        dist: map<string, real>, prev: map<string, string>, unvisited: set<string>)
  {
    var settled := Settled(g, unvisited);
    && unvisited <= g.Keys
    && start in dist && dist[start] == 0.0
    && dist.Keys <= g.Keys + {start}
    && (start !in settled ==> dist.Keys == {start} && prev.Keys == {})
    && end !in settled
    && settled <= dist.Keys
    && start !in prev
    && prev.Keys <= dist.Keys
    && (forall v :: v in dist && v != start ==> v in prev)
  }

  /** Every recorded predecessor is a justified step. */
  ghost predicate Predecessors(g: Graph, pref: Preference, dist: map<string, real>, prev: map<string, string>,
                               via: map<string, nat>, settled: set<string>)
  {
    forall v :: v in prev ==> PredecessorStep(g, pref, dist, prev, via, settled, v)
  }

  /** Settled nodes are numbered in settling order, and a predecessor was settled before its successor. */
  ghost predicate Ranked(prev: map<string, string>, settled: set<string>, rank: map<string, nat>, count: nat)
  {
    && rank.Keys == settled
    && (forall v :: v in rank ==> rank[v] < count)
    && (forall v :: v in prev && v in rank && prev[v] in rank ==> rank[prev[v]] < rank[v])
  }

  /** The bookkeeping that holds between two iterations of the search, apart from relaxation. */
  ghost predicate SearchState(g: Graph, pref: Preference, start: string, end: string,
                              dist: map<string, real>, prev: map<string, string>, via: map<string, nat>,
                              unvisited: set<string>, rank: map<string, nat>, count: nat)
  {
    && Frame(g, start, end, dist, prev, unvisited)
    && Predecessors(g, pref, dist, prev, via, Settled(g, unvisited))
    && Ranked(prev, Settled(g, unvisited), rank, count)
    && (NonNegative(g) ==> SettledOptimal(g, pref, start, dist, Settled(g, unvisited)))
  }

  /** Why the search loop stopped: nothing unvisited is reachable, or the destination is the closest unvisited node. */
  ghost predicate Finished(end: string, dist: map<string, real>, unvisited: set<string>)
  {
    || (forall v :: v in unvisited ==> v !in dist)
    || IsClosest(dist, unvisited, end)
  }

  /** The linear scan for the unvisited node of smallest finite distance. */
  method ClosestUnvisited(unvisited: set<string>, dist: map<string, real>) returns (found: Option<string>)
    ensures found.None? <==> forall v :: v in unvisited ==> v !in dist
    ensures found.Some? ==> IsClosest(dist, unvisited, found.value)
  {
    found := None;
    var rest := unvisited;
    while rest != {}
      invariant rest <= unvisited
      invariant found.None? ==> forall v :: v in unvisited - rest ==> v !in dist
      invariant found.Some? ==> IsClosest(dist, unvisited - rest, found.value)
      decreases rest
    {
      var v :| v in rest;
      rest := rest - {v};
      if v in dist && (found.None? || dist[v] < dist[found.value]) {
        found := Some(v);
      }
    }
  }

  /**
    The closest unvisited node is at its shortest distance: any walk to it
    leaves the settled nodes at some first unvisited node, which is no closer.
   */
  lemma ClosestIsOptimal(g: Graph, pref: Preference, start: string,
                         dist: map<string, real>, unvisited: set<string>,
                         c: string, p: seq<string>, hops: seq<nat>)
    requires start in dist && dist[start] == 0.0
    requires SettledOptimal(g, pref, start, dist, Settled(g, unvisited))
    requires Relaxed(g, pref, dist, unvisited, Settled(g, unvisited))
    requires NonNegative(g)
    requires IsClosest(dist, unvisited, c)
    requires IsWalk(g, p, hops) && p[0] == start && p[|p| - 1] == c
    ensures dist[c] <= WalkWeight(g, pref, p, hops)
  {
    var k := 0;
    while p[k] !in unvisited
      invariant 0 <= k < |p|
      invariant k > 0 ==> p[k - 1] !in unvisited
      decreases |p| - k
    {
      k := k + 1;
    }
    PrefixWeightBound(g, pref, p, hops, k + 1);
    if k == 0 {
      assert WalkWeight(g, pref, p[..1], hops[..0]) == 0.0;
    } else {
      var u := p[k - 1];
      assert IsHop(g, u, hops[k - 1], p[k]);
      PrefixWalk(g, p, hops, k);
      var q, qh := p[..k], hops[..k - 1];
      assert q[|q| - 1] == u;
      ExtendWalk(g, pref, q, qh, hops[k - 1], p[k]);
      assert q + [p[k]] == p[..k + 1];
      assert qh + [hops[k - 1]] == hops[..k];
    }
  }

  /** Once nothing unvisited is reachable, every walk from a settled start ends at a settled node. */
  lemma {:induction false} WalksStaySettled(g: Graph, pref: Preference, start: string,
                                            dist: map<string, real>, unvisited: set<string>,
                                            p: seq<string>, hops: seq<nat>)
    requires Relaxed(g, pref, dist, unvisited, Settled(g, unvisited))
    requires forall v :: v in unvisited ==> v !in dist
    requires start in Settled(g, unvisited)
    requires IsWalk(g, p, hops) && p[0] == start
    ensures p[|p| - 1] in Settled(g, unvisited)
    decreases |hops|
  {
    if |hops| > 0 {
      PrefixWalk(g, p, hops, |p| - 1);
      WalksStaySettled(g, pref, start, dist, unvisited, p[..|p| - 1], hops[..|hops| - 1]);
      assert IsHop(g, p[|p| - 2], hops[|hops| - 1], p[|p| - 1]);
    }
  }

  /** Following predecessors from any reached node leads back to `start` along a walk of exactly its distance. */
  lemma {:induction false} ChainWalk(g: Graph, pref: Preference, start: string, end: string,
                                     dist: map<string, real>, prev: map<string, string>, via: map<string, nat>,
                                     unvisited: set<string>, rank: map<string, nat>, count: nat, v: string)
    returns (p: seq<string>, hops: seq<nat>)
    requires SearchState(g, pref, start, end, dist, prev, via, unvisited, rank, count)
    requires v in dist
    ensures IsWalk(g, p, hops) && p[0] == start && p[|p| - 1] == v
    ensures WalkWeight(g, pref, p, hops) == dist[v]
    decreases if v in rank then rank[v] else count
  {
    if v == start {
      p, hops := [start], [];
    } else {
      assert PredecessorStep(g, pref, dist, prev, via, Settled(g, unvisited), v);
      var u := prev[v];
      var q, qh := ChainWalk(g, pref, start, end, dist, prev, via, unvisited, rank, count, u);
      ExtendWalk(g, pref, q, qh, via[v], v);
      p, hops := q + [v], qh + [via[v]];
    }
  }

  /** Taking the closest node `c` out of the unvisited set keeps the bookkeeping; none of its connections is relaxed yet. */
  lemma SettleEntry(g: Graph, pref: Preference, start: string, end: string,
                    dist: map<string, real>, prev: map<string, string>, via: map<string, nat>,
                    unvisited: set<string>, rank: map<string, nat>, count: nat, c: string)
    requires SearchState(g, pref, start, end, dist, prev, via, unvisited, rank, count)
    requires Relaxed(g, pref, dist, unvisited, Settled(g, unvisited))
    requires IsClosest(dist, unvisited, c) && c != end
    ensures SearchState(g, pref, start, end, dist, prev, via, unvisited - {c}, rank[c := count], count + 1)
    ensures Relaxed(g, pref, dist, unvisited - {c}, Settled(g, unvisited - {c}) - {c})
    ensures RelaxedUpTo(g, pref, dist, unvisited - {c}, c, 0)
  {
    var settled, settled' := Settled(g, unvisited), Settled(g, unvisited - {c});
    assert settled' == settled + {c};
    SettleOptimal(g, pref, start, dist, unvisited, c);
    SettlePredecessors(g, pref, dist, prev, via, settled, settled');
    SettleRanked(g, pref, dist, prev, via, settled, rank, count, c);
  }

  /** The closest unvisited node joins the settled nodes at its optimal distance. */
  lemma SettleOptimal(g: Graph, pref: Preference, start: string, dist: map<string, real>, unvisited: set<string>, c: string)
    requires start in dist && dist[start] == 0.0
    requires NonNegative(g) ==> SettledOptimal(g, pref, start, dist, Settled(g, unvisited))
    requires Relaxed(g, pref, dist, unvisited, Settled(g, unvisited))
    requires IsClosest(dist, unvisited, c) && c in g
    ensures NonNegative(g) ==> SettledOptimal(g, pref, start, dist, Settled(g, unvisited - {c}))
  {
    if NonNegative(g) {
      forall p, hops | IsWalk(g, p, hops) && p[0] == start && p[|p| - 1] == c
        ensures dist[c] <= WalkWeight(g, pref, p, hops)
      {
        ClosestIsOptimal(g, pref, start, dist, unvisited, c, p, hops);
      }
      assert Settled(g, unvisited - {c}) == Settled(g, unvisited) + {c};
    }
  }

  /** Predecessor steps stay justified as the settled set grows. */
  lemma SettlePredecessors(g: Graph, pref: Preference, dist: map<string, real>, prev: map<string, string>,
                           via: map<string, nat>, settled: set<string>, settled': set<string>)
    requires Predecessors(g, pref, dist, prev, via, settled)
    requires settled <= settled'
    ensures Predecessors(g, pref, dist, prev, via, settled')
  {
    forall v | v in prev
      ensures PredecessorStep(g, pref, dist, prev, via, settled', v)
    {
      assert PredecessorStep(g, pref, dist, prev, via, settled, v);
    }
  }

  /** The node settled next takes the next rank, after its predecessor's. */
  lemma SettleRanked(g: Graph, pref: Preference, dist: map<string, real>, prev: map<string, string>,
                     via: map<string, nat>, settled: set<string>, rank: map<string, nat>, count: nat, c: string)
    requires Predecessors(g, pref, dist, prev, via, settled)
    requires Ranked(prev, settled, rank, count)
    requires c !in settled
    ensures Ranked(prev, settled + {c}, rank[c := count], count + 1)
  {
    forall v | v in prev && v in rank[c := count] && prev[v] in rank[c := count]
      ensures rank[c := count][prev[v]] < rank[c := count][v]
    {
      assert PredecessorStep(g, pref, dist, prev, via, settled, v);
    }
  }

  lemma RelaxFrame(g: Graph, start: string, end: string, dist: map<string, real>, prev: map<string, string>,
                   unvisited: set<string>, c: string, v: string, alt: real)
    requires Frame(g, start, end, dist, prev, unvisited)
    requires c in Settled(g, unvisited) && v in unvisited
    ensures Frame(g, start, end, dist[v := alt], prev[v := c], unvisited)
  {
    assert start in Settled(g, unvisited);
  }

  lemma RelaxPredecessors(g: Graph, pref: Preference, dist: map<string, real>, prev: map<string, string>,
                          via: map<string, nat>, settled: set<string>, c: string, i: nat, v: string)
    requires Predecessors(g, pref, dist, prev, via, settled)
    requires c in settled && c in dist && v !in settled
    requires IsHop(g, c, i, v)
    ensures Predecessors(g, pref, dist[v := dist[c] + HopWeight(g, pref, c, i)], prev[v := c], via[v := i], settled)
  {
    var dist', prev', via' := dist[v := dist[c] + HopWeight(g, pref, c, i)], prev[v := c], via[v := i];
    forall w | w in prev'
      ensures PredecessorStep(g, pref, dist', prev', via', settled, w)
    {
      if w != v {
        assert PredecessorStep(g, pref, dist, prev, via, settled, w);
      }
    }
  }

  lemma RelaxOptimal(g: Graph, pref: Preference, start: string, dist: map<string, real>, settled: set<string>,
                     v: string, alt: real)
    requires SettledOptimal(g, pref, start, dist, settled)
    requires v !in settled
    ensures SettledOptimal(g, pref, start, dist[v := alt], settled)
  {
  }

  lemma RelaxKeepsRelaxed(g: Graph, pref: Preference, dist: map<string, real>, unvisited: set<string>,
                          c: string, i: nat, v: string, alt: real)
    requires Relaxed(g, pref, dist, unvisited, Settled(g, unvisited) - {c})
    requires RelaxedUpTo(g, pref, dist, unvisited, c, i)
    requires c in Settled(g, unvisited)
    requires i < |g[c].connections| && g[c].connections[i].isAvailable
    requires v == g[c].connections[i].nodeId && v in unvisited
    requires alt == dist[c] + HopWeight(g, pref, c, i)
    requires v !in dist || alt < dist[v]
    ensures Relaxed(g, pref, dist[v := alt], unvisited, Settled(g, unvisited) - {c})
    ensures RelaxedUpTo(g, pref, dist[v := alt], unvisited, c, i + 1)
  {
  }

  lemma RelaxRanked(prev: map<string, string>, settled: set<string>, rank: map<string, nat>, count: nat, c: string, v: string)
    requires Ranked(prev, settled, rank, count)
    requires v !in settled
    ensures Ranked(prev[v := c], settled, rank, count)
  {
  }

  /** Lowering the distance of an unvisited neighbour `v` of the settled node `c` through connection `i`. */
  lemma RelaxStep(g: Graph, pref: Preference, start: string, end: string,
                  dist: map<string, real>, prev: map<string, string>, via: map<string, nat>,
                  unvisited: set<string>, rank: map<string, nat>, count: nat, c: string, i: nat, v: string, alt: real)
    requires SearchState(g, pref, start, end, dist, prev, via, unvisited, rank, count)
    requires Relaxed(g, pref, dist, unvisited, Settled(g, unvisited) - {c})
    requires RelaxedUpTo(g, pref, dist, unvisited, c, i)
    requires c in Settled(g, unvisited)
    requires i < |g[c].connections| && g[c].connections[i].isAvailable
    requires v == g[c].connections[i].nodeId && v in unvisited
    requires alt == dist[c] + HopWeight(g, pref, c, i)
    requires v !in dist || alt < dist[v]
    ensures SearchState(g, pref, start, end, dist[v := alt], prev[v := c], via[v := i], unvisited, rank, count)
    ensures Relaxed(g, pref, dist[v := alt], unvisited, Settled(g, unvisited) - {c})
    ensures RelaxedUpTo(g, pref, dist[v := alt], unvisited, c, i + 1)
  {
    var settled := Settled(g, unvisited);
    assert IsHop(g, c, i, v);
    RelaxFrame(g, start, end, dist, prev, unvisited, c, v, alt);
    RelaxPredecessors(g, pref, dist, prev, via, settled, c, i, v);
    if NonNegative(g) {
      RelaxOptimal(g, pref, start, dist, settled, v, alt);
    }
    RelaxRanked(prev, settled, rank, count, c, v);
    RelaxKeepsRelaxed(g, pref, dist, unvisited, c, i, v, alt);
  }

  /** A connection that is unavailable, leads to a visited node, or offers no shorter distance needs no update. */
  lemma RelaxSkip(g: Graph, pref: Preference, dist: map<string, real>, unvisited: set<string>, c: string, i: nat)
    requires RelaxedUpTo(g, pref, dist, unvisited, c, i)
    requires i < |g[c].connections|
    requires var conn := g[c].connections[i];
      || !conn.isAvailable
      || conn.nodeId !in unvisited
      || (conn.nodeId in dist && dist[conn.nodeId] <= dist[c] + HopWeight(g, pref, c, i))
    ensures RelaxedUpTo(g, pref, dist, unvisited, c, i + 1)
  {
  }

  /** Once every connection of `c` is relaxed, the settled set including `c` is relaxed. */
  lemma RelaxedComplete(g: Graph, pref: Preference, dist: map<string, real>, unvisited: set<string>, c: string)
    requires Relaxed(g, pref, dist, unvisited, Settled(g, unvisited) - {c})
    requires c in g && RelaxedUpTo(g, pref, dist, unvisited, c, |g[c].connections|)
    ensures Relaxed(g, pref, dist, unvisited, Settled(g, unvisited))
  {
    forall u, j: nat, v | u in Settled(g, unvisited) && IsHop(g, u, j, v) && v in unvisited
      ensures u in dist && v in dist && dist[v] <= dist[u] + HopWeight(g, pref, u, j)
    {
      if u == c {
        assert j < |g[c].connections|;
      }
    }
  }

  /** The body of the loop over the connections of `c`: relax connection `i` if it is usable and shortens a distance. */
  method RelaxConnection(g: Graph, pref: Preference, start: string, end: string,
                         dist: map<string, real>, prev: map<string, string>, ghost via: map<string, nat>,
                         unvisited: set<string>, ghost rank: map<string, nat>, ghost count: nat, c: string, i: nat)
    returns (dist': map<string, real>, prev': map<string, string>, ghost via': map<string, nat>)
    requires c in Settled(g, unvisited) && i < |g[c].connections|
    requires SearchState(g, pref, start, end, dist, prev, via, unvisited, rank, count)
    requires Relaxed(g, pref, dist, unvisited, Settled(g, unvisited) - {c})
    requires RelaxedUpTo(g, pref, dist, unvisited, c, i)
    ensures SearchState(g, pref, start, end, dist', prev', via', unvisited, rank, count)
    ensures Relaxed(g, pref, dist', unvisited, Settled(g, unvisited) - {c})
    ensures RelaxedUpTo(g, pref, dist', unvisited, c, i + 1)
  {
    dist', prev', via' := dist, prev, via;
    var conn := g[c].connections[i];
    if conn.isAvailable && conn.nodeId in unvisited {
      var v := conn.nodeId;
      var alt := dist[c] + EdgeWeight(g, g[c], conn, pref);
      if v !in dist || alt < dist[v] {
        assert alt == dist[c] + HopWeight(g, pref, c, i);
        RelaxStep(g, pref, start, end, dist, prev, via, unvisited, rank, count, c, i, v, alt);
        dist', prev', via' := dist[v := alt], prev[v := c], via[v := i];
        return;
      }
    }
    RelaxSkip(g, pref, dist, unvisited, c, i);
  }

  /** The loop over the connections of the newly settled node `c`. */
  method RelaxNeighbours(g: Graph, pref: Preference, start: string, end: string,
                         dist: map<string, real>, prev: map<string, string>, ghost via: map<string, nat>,
                         unvisited: set<string>, ghost rank: map<string, nat>, ghost count: nat, c: string)
    returns (dist': map<string, real>, prev': map<string, string>, ghost via': map<string, nat>)
    requires SearchState(g, pref, start, end, dist, prev, via, unvisited, rank, count)
    requires Relaxed(g, pref, dist, unvisited, Settled(g, unvisited) - {c})
    requires RelaxedUpTo(g, pref, dist, unvisited, c, 0)
    requires c in Settled(g, unvisited)
    ensures SearchState(g, pref, start, end, dist', prev', via', unvisited, rank, count)
    ensures Relaxed(g, pref, dist', unvisited, Settled(g, unvisited))
  {
    dist', prev', via' := dist, prev, via;
    var i := 0;
    while i < |g[c].connections|
      invariant 0 <= i <= |g[c].connections|
      invariant SearchState(g, pref, start, end, dist', prev', via', unvisited, rank, count)
      invariant Relaxed(g, pref, dist', unvisited, Settled(g, unvisited) - {c})
      invariant RelaxedUpTo(g, pref, dist', unvisited, c, i)
    {
      dist', prev', via' := RelaxConnection(g, pref, start, end, dist', prev', via', unvisited, rank, count, c, i);
      i := i + 1;
    }
    RelaxedComplete(g, pref, dist', unvisited, c);
  }

  /**
    One iteration of the search: takes the closest unvisited node `c` out of
    the unvisited set and relaxes each of its available connections.
   */
  method Settle(g: Graph, pref: Preference, start: string, end: string,
                dist: map<string, real>, prev: map<string, string>, ghost via: map<string, nat>,
                unvisited: set<string>, ghost rank: map<string, nat>, ghost count: nat, c: string)
    returns (dist': map<string, real>, prev': map<string, string>, ghost via': map<string, nat>,
             unvisited': set<string>, ghost rank': map<string, nat>, ghost count': nat)
    requires SearchState(g, pref, start, end, dist, prev, via, unvisited, rank, count)
    requires Relaxed(g, pref, dist, unvisited, Settled(g, unvisited))
    requires IsClosest(dist, unvisited, c) && c != end
    ensures SearchState(g, pref, start, end, dist', prev', via', unvisited', rank', count')
    ensures Relaxed(g, pref, dist', unvisited', Settled(g, unvisited'))
    ensures unvisited' == unvisited - {c}
  {
    SettleEntry(g, pref, start, end, dist, prev, via, unvisited, rank, count, c);
    unvisited' := unvisited - {c};
    rank', count' := rank[c := count], count + 1;
    dist', prev', via' := RelaxNeighbours(g, pref, start, end, dist, prev, via, unvisited', rank', count', c);
  }

  /** The search loop: settle the closest unvisited node until none is reachable or the destination is closest. */
  method Search(g: Graph, pref: Preference, start: string, end: string)
    returns (dist: map<string, real>, prev: map<string, string>, ghost via: map<string, nat>,
             unvisited: set<string>, ghost rank: map<string, nat>, ghost count: nat)
    ensures SearchState(g, pref, start, end, dist, prev, via, unvisited, rank, count)
    ensures Relaxed(g, pref, dist, unvisited, Settled(g, unvisited))
    ensures Finished(end, dist, unvisited)
  {
    dist, prev, via := map[start := 0.0], map[], map[];
    unvisited, rank, count := g.Keys, map[], 0;
    var done := false;
    while !done && |unvisited| > 0
      invariant SearchState(g, pref, start, end, dist, prev, via, unvisited, rank, count)
      invariant Relaxed(g, pref, dist, unvisited, Settled(g, unvisited))
      invariant done ==> Finished(end, dist, unvisited)
      decreases |unvisited|, !done
    {
      var closest := ClosestUnvisited(unvisited, dist);
      if closest.None? {
        done := true;
      } else if closest.value == end {
        done := true;
      } else {
        dist, prev, via, unvisited, rank, count := Settle(g, pref, start, end, dist, prev, via, unvisited, rank, count, closest.value);
      }
    }
  }

  /**
    The predecessor the reconstruction moves to from `x`: `previous.get(x) || null`,
    so a missing entry and an empty-string id both end the walk back.
   */
  function NextBack(prev: map<string, string>, x: string): Option<string>
  {
    if x in prev && prev[x] != "" then Some(prev[x]) else None
  }

  /**
    Rebuilds the route by walking predecessors back from `end` and
    prepending each node. The walk stops at a node without predecessor or
    at an empty-string predecessor; when no node has the empty id it
    therefore starts at `start`.
   */
  method TracePath(g: Graph, pref: Preference, start: string, end: string,
                   dist: map<string, real>, prev: map<string, string>, ghost via: map<string, nat>,
                   unvisited: set<string>, ghost rank: map<string, nat>, ghost count: nat)
    returns (path: seq<string>, ghost hops: seq<nat>)
    requires SearchState(g, pref, start, end, dist, prev, via, unvisited, rank, count)
    requires end in prev
    ensures IsWalk(g, path, hops) && path[|path| - 1] == end
    ensures forall k :: 0 <= k < |path| ==> path[k] in g
    ensures path[0] in dist && WalkWeight(g, pref, path, hops) == dist[end] - dist[path[0]]
    ensures "" !in g ==> path[0] == start && |path| >= 2
  {
    var settled := Settled(g, unvisited);
    assert PredecessorStep(g, pref, dist, prev, via, settled, end);
    path, hops := [], [];
    var current: Option<string> := Some(end);
    while current.Some?
      invariant current.Some? ==> current.value in dist && current.value in g
      invariant path == [] ==> current == Some(end) && hops == []
      invariant path != [] ==> Traced(g, pref, end, dist, path, hops)
      invariant path != [] && current.Some? ==> path[0] in prev && current.value == prev[path[0]]
      invariant path != [] && current.None? ==> NextBack(prev, path[0]).None?
      decreases if current.None? then 0 else if current.value in rank then rank[current.value] + 1 else count + 1
    {
      var x := current.value;
      if path != [] {
        assert PredecessorStep(g, pref, dist, prev, via, settled, path[0]);
        TraceStep(g, pref, end, dist, prev, via, settled, path, hops);
        hops := [via[path[0]]] + hops;
      }
      path := [x] + path;
      current := NextBack(prev, x);
      if current.Some? {
        assert PredecessorStep(g, pref, dist, prev, via, settled, x);
      }
    }
    TraceStops(g, pref, start, end, dist, prev, via, unvisited, rank, count, path, hops);
  }

  /** `path` is a walk over `hops` ending at `end`, weighing the difference of its ends' distances. */
  ghost predicate Traced(g: Graph, pref: Preference, end: string, dist: map<string, real>, path: seq<string>, hops: seq<nat>)
  {
    && IsWalk(g, path, hops)
    && path[|path| - 1] == end
    && (forall k :: 0 <= k < |path| ==> path[k] in g)
    && end in dist
    && path[0] in dist
    && WalkWeight(g, pref, path, hops) == dist[end] - dist[path[0]]
  }

  /** Prepending the recorded predecessor of the first node extends a traced walk by one hop. */
  lemma TraceStep(g: Graph, pref: Preference, end: string, dist: map<string, real>, prev: map<string, string>,
                  via: map<string, nat>, settled: set<string>, path: seq<string>, hops: seq<nat>)
    requires Traced(g, pref, end, dist, path, hops) && path[0] in prev
    requires PredecessorStep(g, pref, dist, prev, via, settled, path[0])
    ensures path[0] in via && Traced(g, pref, end, dist, [prev[path[0]]] + path, [via[path[0]]] + hops)
  {
    PrependWalk(g, pref, prev[path[0]], via[path[0]], path, hops);
    var path' := [prev[path[0]]] + path;
    assert forall k :: 1 <= k < |path'| ==> path'[k] == path[k - 1];
  }

  /** A trace that stops at a node without a usable predecessor reaches back to `start`, if no node has the empty id. */
  lemma TraceStops(g: Graph, pref: Preference, start: string, end: string,
                   dist: map<string, real>, prev: map<string, string>, via: map<string, nat>,
                   unvisited: set<string>, rank: map<string, nat>, count: nat, path: seq<string>, hops: seq<nat>)
    requires SearchState(g, pref, start, end, dist, prev, via, unvisited, rank, count)
    requires end in prev
    requires path != [] && Traced(g, pref, end, dist, path, hops) && NextBack(prev, path[0]).None?
    ensures "" !in g ==> path[0] == start && |path| >= 2
  {
    if path[0] in prev {
      assert PredecessorStep(g, pref, dist, prev, via, Settled(g, unvisited), path[0]);
    }
  }

  /**
    When the search ends without a predecessor for `end`, there is no route:
    the start is the destination, is not a node, or cannot reach it.
   */
  lemma NoPredecessorNoRoute(g: Graph, pref: Preference, start: string, end: string,
                             dist: map<string, real>, prev: map<string, string>, via: map<string, nat>,
                             unvisited: set<string>, rank: map<string, nat>, count: nat)
    requires SearchState(g, pref, start, end, dist, prev, via, unvisited, rank, count)
    requires Relaxed(g, pref, dist, unvisited, Settled(g, unvisited))
    requires Finished(end, dist, unvisited)
    requires end !in prev
    ensures start == end || start !in g || !Reachable(g, start, end)
  {
    if start != end && start in g {
      forall p, hops | IsWalk(g, p, hops) && p[0] == start
        ensures p[|p| - 1] in Settled(g, unvisited)
      {
        WalksStaySettled(g, pref, start, dist, unvisited, p, hops);
      }
    }
  }

  /** When `end` has a predecessor, the start is a different node of the graph that reaches it. */
  lemma PredecessorMeansRoute(g: Graph, pref: Preference, start: string, end: string,
                              dist: map<string, real>, prev: map<string, string>, via: map<string, nat>,
                              unvisited: set<string>, rank: map<string, nat>, count: nat)
    requires SearchState(g, pref, start, end, dist, prev, via, unvisited, rank, count)
    requires end in prev
    ensures start != end && start in g && Reachable(g, start, end)
  {
    var p, hops := ChainWalk(g, pref, start, end, dist, prev, via, unvisited, rank, count, end);
  }

  /** When `end` has a predecessor its distance is no more than that of any walk from `start`. */
  lemma PredecessorMeansShortest(g: Graph, pref: Preference, start: string, end: string,
                                 dist: map<string, real>, prev: map<string, string>, via: map<string, nat>,
                                 unvisited: set<string>, rank: map<string, nat>, count: nat)
    requires SearchState(g, pref, start, end, dist, prev, via, unvisited, rank, count)
    requires Relaxed(g, pref, dist, unvisited, Settled(g, unvisited))
    requires Finished(end, dist, unvisited)
    requires NonNegative(g)
    requires end in prev
    ensures end in dist
    ensures forall p, hops :: IsWalk(g, p, hops) && p[0] == start && p[|p| - 1] == end ==>
      dist[end] <= WalkWeight(g, pref, p, hops)
  {
    assert PredecessorStep(g, pref, dist, prev, via, Settled(g, unvisited), end);
    assert IsClosest(dist, unvisited, end);
    forall p, hops | IsWalk(g, p, hops) && p[0] == start && p[|p| - 1] == end
      ensures dist[end] <= WalkWeight(g, pref, p, hops)
    {
      ClosestIsOptimal(g, pref, start, dist, unvisited, end, p, hops);
    }
  }
}

=== FILE: graph_builder.dfy ===
/**
  `buildGraph`: one node per building record, then two directional
  connections for every path record whose endpoints both name buildings.
 */
module GraphBuilder {
  import opened CampusGraph
  import PathStatus

  /** The parts of a building record the graph uses. */
  datatype Building = Building(id: string, location: Position)

  /** A path record's status. */
  datatype SegmentStatus = Open | Closed | Construction

  /** The parts of a path record the graph uses: a segment between two buildings. */
  datatype PathRecord = PathRecord(id: string, from: string, to: string, distance: real, status: SegmentStatus)

  function BuildingIds(buildings: seq<Building>): set<string>
  {
    set b | b in buildings :: b.id
  }

  /** Building `k` is the last of `buildings[..n]` with its id, so the id map points at it. */
  ghost predicate LastIn(buildings: seq<Building>, k: int, n: int)
  {
    && 0 <= k < n <= |buildings|
    && forall j :: k < j < n ==> buildings[j].id != buildings[k].id
  }

  /** The connection a segment gives its `from` endpoint. */
  function Forward(p: PathRecord): (c: Connection)
    ensures c.nodeId == p.to && c.pathId == p.id && c.distance == p.distance
    ensures c.isAvailable <==> p.status == Open
  {
    Connection(p.to, p.distance, p.id, p.status == Open)
  }

  /** The connection a segment gives its `to` endpoint. */
  function Reverse(p: PathRecord): (c: Connection)
    ensures c.nodeId == p.from && c.pathId == p.id && c.distance == p.distance
    ensures c.isAvailable <==> p.status == Open
  {
    Connection(p.from, p.distance, p.id, p.status == Open)
  }

  /** The two connections of a segment differ only in their target, so both directions agree. */
  lemma ReverseMirrorsForward(p: PathRecord)
    ensures Reverse(p) == Forward(p).(nodeId := p.from)
    ensures PathStatus.Agree(Forward(p), Reverse(p))
  {
  }

  /** What one segment appends to the node `id`: its forward connection, then its reverse one. */
  function Contribution(p: PathRecord, id: string): seq<Connection>
  {
    (if p.from == id then [Forward(p)] else []) + (if p.to == id then [Reverse(p)] else [])
  }

  /**
    Reference definition of a node's connections: the contributions of the
    segments whose endpoints are both in `known`, in segment order.
   */
  function SegmentConnections(known: set<string>, paths: seq<PathRecord>, id: string): seq<Connection>
    decreases |paths|
  {
    if |paths| == 0 then
      []
    else
      var p := paths[|paths| - 1];
      SegmentConnections(known, paths[..|paths| - 1], id) + (if p.from in known && p.to in known then Contribution(p, id) else [])
  }

  /** A connection that segment `p` would give node `id`. */
  ghost predicate ContributedBy(p: PathRecord, id: string, c: Connection)
  {
    (p.from == id && c == Forward(p)) || (p.to == id && c == Reverse(p))
  }

  /** Node `node` at position `k` is building `k`, holding `paths`' connections when it is the last of its id. */
  ghost predicate NodeWired(buildings: seq<Building>, k: int, node: GraphNode, paths: seq<PathRecord>)
    requires 0 <= k < |buildings|
  {
    && node.id == buildings[k].id
    && node.buildingId == buildings[k].id
    && node.position == buildings[k].location
    && node.connections == (if LastIn(buildings, k, |buildings|) then SegmentConnections(BuildingIds(buildings), paths, buildings[k].id) else [])
  }

  /** `nodes` is the building list turned into nodes, with the last node of each id holding `paths`' connections. */
  ghost predicate Wired(buildings: seq<Building>, nodes: seq<GraphNode>, paths: seq<PathRecord>)
  {
    && |nodes| == |buildings|
    && forall k :: 0 <= k < |nodes| ==> NodeWired(buildings, k, nodes[k], paths)
  }

  /** `nodeMap` sends each building id to the index of the last building carrying it. */
  ghost predicate Indexed(buildings: seq<Building>, n: int, nodeMap: map<string, nat>)
  {
    && 0 <= n <= |buildings|
    && nodeMap.Keys == BuildingIds(buildings[..n])
    && forall id :: id in nodeMap ==> LastIn(buildings, nodeMap[id], n) && buildings[nodeMap[id]].id == id
  }

  /**
    `buildGraph(buildings, paths)`: node `k` is building `k`; when several
    buildings share an id, every connection goes to the last of them.
   */
  method BuildGraph(buildings: seq<Building>, paths: seq<PathRecord>) returns (nodes: seq<GraphNode>)
    ensures Wired(buildings, nodes, paths)
  {
    var nodeMap;
    nodes, nodeMap := RegisterBuildings(buildings);
    nodes := ConnectSegments(buildings, nodeMap, nodes, paths);
  }

  /** The building loop: one unconnected node per building, and the id map pointing at last occurrences. */
  method RegisterBuildings(buildings: seq<Building>) returns (nodes: seq<GraphNode>, nodeMap: map<string, nat>)
    ensures Indexed(buildings, |buildings|, nodeMap)
    ensures Wired(buildings, nodes, [])
  {
    nodes := [];
    nodeMap := map[];
    var n := 0;
    while n < |buildings|
      invariant Indexed(buildings, n, nodeMap)
      invariant |nodes| == n
      invariant forall k :: 0 <= k < n ==> nodes[k] == GraphNode(buildings[k].id, buildings[k].id, buildings[k].location, [])
    {
      var b := buildings[n];
      IndexStep(buildings, n, nodeMap);
      nodes := nodes + [GraphNode(b.id, b.id, b.location, [])];
      nodeMap := nodeMap[b.id := n];
      n := n + 1;
    }
    NoSegmentsWired(buildings, nodes);
  }

  /** The segment loop: each segment in turn adds its two connections to the nodes the id map names. */
  method ConnectSegments(buildings: seq<Building>, nodeMap: map<string, nat>, nodes: seq<GraphNode>, paths: seq<PathRecord>)
    returns (nodes': seq<GraphNode>)
    requires Indexed(buildings, |buildings|, nodeMap)
    requires Wired(buildings, nodes, [])
    ensures Wired(buildings, nodes', paths)
  {
    nodes' := nodes;
    assert paths[..0] == [];
    var t := 0;
    while t < |paths|
      invariant t <= |paths|
      invariant Wired(buildings, nodes', paths[..t])
    {
      nodes' := AddSegment(buildings, nodeMap, nodes', paths[..t], paths[t]);
      assert paths[..t + 1] == paths[..t] + [paths[t]];
      t := t + 1;
    }
    assert paths[..t] == paths;
  }

  /** `nodes[i].connections.push(c)`. */
  function Push(nodes: seq<GraphNode>, i: nat, c: Connection): (nodes': seq<GraphNode>)
    requires i < |nodes|
    ensures |nodes'| == |nodes|
    ensures forall k :: 0 <= k < |nodes| ==>
      nodes'[k] == nodes[k].(connections := nodes[k].connections + if k == i then [c] else [])
  {
    nodes[i := nodes[i].(connections := nodes[i].connections + [c])]
  }

  /** One iteration of the segment loop: append the segment's connections to its two endpoints. */
  method AddSegment(buildings: seq<Building>, nodeMap: map<string, nat>, nodes: seq<GraphNode>, done: seq<PathRecord>, p: PathRecord)
    returns (nodes': seq<GraphNode>)
    requires Indexed(buildings, |buildings|, nodeMap)
    requires Wired(buildings, nodes, done)
    ensures Wired(buildings, nodes', done + [p])
  {
    if p.from in nodeMap && p.to in nodeMap {
      var fromIndex := nodeMap[p.from];
      var toIndex := nodeMap[p.to];
      nodes' := Push(Push(nodes, fromIndex, Forward(p)), toIndex, Reverse(p));
      PushTwice(nodes, fromIndex, toIndex, Forward(p), Reverse(p), nodes');
    } else {
      nodes' := nodes;
      assert forall k :: 0 <= k < |nodes| ==> nodes[k].connections + Appended(nodeMap, k, p) == nodes[k].connections;
    }
    SegmentWired(buildings, nodeMap, nodes, nodes', done, p);
  }

  /** Two pushes append to node `k` what is addressed to it, in order. */
  lemma PushTwice(nodes: seq<GraphNode>, i: nat, j: nat, a: Connection, b: Connection, nodes': seq<GraphNode>)
    requires i < |nodes| && j < |nodes|
    requires nodes' == Push(Push(nodes, i, a), j, b)
    ensures |nodes'| == |nodes|
    ensures forall k :: 0 <= k < |nodes| ==>
      nodes'[k] == nodes[k].(connections := nodes[k].connections + ((if k == i then [a] else []) + (if k == j then [b] else [])))
  {
    forall k | 0 <= k < |nodes|
      ensures nodes'[k] == nodes[k].(connections := nodes[k].connections + ((if k == i then [a] else []) + (if k == j then [b] else [])))
    {
      assert nodes[k].connections + (if k == i then [a] else []) + (if k == j then [b] else [])
          == nodes[k].connections + ((if k == i then [a] else []) + (if k == j then [b] else []));
    }
  }

  /** Appending to every node what the id map sends it keeps all nodes wired, one segment further. */
  lemma SegmentWired(buildings: seq<Building>, nodeMap: map<string, nat>, nodes: seq<GraphNode>, nodes': seq<GraphNode>,
                     done: seq<PathRecord>, p: PathRecord)
    requires Indexed(buildings, |buildings|, nodeMap)
    requires Wired(buildings, nodes, done)
    requires |nodes'| == |nodes|
    requires forall k :: 0 <= k < |nodes| ==> nodes'[k] == nodes[k].(connections := nodes[k].connections + Appended(nodeMap, k, p))
    ensures Wired(buildings, nodes', done + [p])
  {
    forall k | 0 <= k < |nodes'|
      ensures NodeWired(buildings, k, nodes'[k], done + [p])
    {
      NodeStep(buildings, nodeMap, k, nodes[k], nodes'[k], done, p);
    }
  }

  /** What one segment appends to node `k`, given the id map. */
  function Appended(nodeMap: map<string, nat>, k: int, p: PathRecord): seq<Connection>
  {
    if p.from in nodeMap && p.to in nodeMap then
      (if k == nodeMap[p.from] then [Forward(p)] else []) + (if k == nodeMap[p.to] then [Reverse(p)] else [])
    else
      []
  }

  /** Appending what the id map sends to node `k` keeps it wired, one segment further. */
  lemma NodeStep(buildings: seq<Building>, nodeMap: map<string, nat>, k: int, node: GraphNode, node': GraphNode,
                 done: seq<PathRecord>, p: PathRecord)
    requires Indexed(buildings, |buildings|, nodeMap)
    requires 0 <= k < |buildings|
    requires NodeWired(buildings, k, node, done)
    requires node' == node.(connections := node.connections + Appended(nodeMap, k, p))
    ensures NodeWired(buildings, k, node', done + [p])
  {
    assert buildings[..|buildings|] == buildings;
    SegmentStep(BuildingIds(buildings), done, p, buildings[k].id);
    if LastIn(buildings, k, |buildings|) {
      LastIndexUnique(buildings, nodeMap, k);
    } else {
      forall id | id in nodeMap ensures nodeMap[id] != k {
      }
    }
  }

  /** Registering building `n` keeps the id map pointing at last occurrences. */
  lemma IndexStep(buildings: seq<Building>, n: int, nodeMap: map<string, nat>)
    requires Indexed(buildings, n, nodeMap) && n < |buildings|
    ensures Indexed(buildings, n + 1, nodeMap[buildings[n].id := n])
  {
    assert buildings[..n + 1] == buildings[..n] + [buildings[n]];
  }

  /** Fresh nodes, one per building and without connections, are wired for no segments. */
  lemma NoSegmentsWired(buildings: seq<Building>, nodes: seq<GraphNode>)
    requires |nodes| == |buildings|
    requires forall k :: 0 <= k < |nodes| ==> nodes[k] == GraphNode(buildings[k].id, buildings[k].id, buildings[k].location, [])
    ensures Wired(buildings, nodes, [])
  {
  }

  /** The id map points every id at its last building and nowhere else. */
  lemma LastIndexUnique(buildings: seq<Building>, nodeMap: map<string, nat>, k: int)
    requires Indexed(buildings, |buildings|, nodeMap)
    requires LastIn(buildings, k, |buildings|)
    ensures forall id :: id in nodeMap ==> (buildings[k].id == id <==> nodeMap[id] == k)
  {
    forall id | id in nodeMap
      ensures buildings[k].id == id <==> nodeMap[id] == k
    {
      if buildings[k].id == id {
        var m := nodeMap[id];
        assert buildings[m].id == buildings[k].id;
        assert m <= k && k <= m;
      }
    }
  }

  /** Extending the segment list by one appends that segment's contribution, if both its endpoints are known. */
  lemma SegmentStep(known: set<string>, done: seq<PathRecord>, p: PathRecord, id: string)
    ensures SegmentConnections(known, done + [p], id) ==
      SegmentConnections(known, done, id) + (if p.from in known && p.to in known then Contribution(p, id) else [])
  {
    assert (done + [p])[..|done|] == done;
  }

  /** Every connection of a node comes from a segment with both endpoints known that touches the node. */
  lemma {:induction false} SegmentConnectionsSound(known: set<string>, paths: seq<PathRecord>, id: string, c: Connection)
    requires c in SegmentConnections(known, paths, id)
    ensures exists p :: p in paths && p.from in known && p.to in known && ContributedBy(p, id, c)
    decreases |paths|
  {
    var front, p := paths[..|paths| - 1], paths[|paths| - 1];
    if c in SegmentConnections(known, front, id) {
      SegmentConnectionsSound(known, front, id, c);
      var q :| q in front && q.from in known && q.to in known && ContributedBy(q, id, c);
      assert q in paths;
    } else {
      assert p in paths;
    }
  }

  /** Every segment with both endpoints known gives each endpoint its connection. */
  lemma {:induction false} SegmentConnectionsComplete(known: set<string>, paths: seq<PathRecord>, id: string, p: PathRecord)
    requires p in paths && p.from in known && p.to in known
    ensures p.from == id ==> Forward(p) in SegmentConnections(known, paths, id)
    ensures p.to == id ==> Reverse(p) in SegmentConnections(known, paths, id)
    decreases |paths|
  {
    var front := paths[..|paths| - 1];
    if p != paths[|paths| - 1] {
      assert p in front by {
        assert paths == front + [paths[|paths| - 1]];
      }
      SegmentConnectionsComplete(known, front, id, p);
    }
  }

  /**
    A further segment between two distinct known buildings appends exactly one
    connection to each endpoint and nothing anywhere else.
   */
  lemma SegmentAppendsOnePerEndpoint(known: set<string>, paths: seq<PathRecord>, p: PathRecord, id: string)
    requires p.from in known && p.to in known && p.from != p.to
    ensures SegmentConnections(known, paths + [p], p.from) == SegmentConnections(known, paths, p.from) + [Forward(p)]
    ensures SegmentConnections(known, paths + [p], p.to) == SegmentConnections(known, paths, p.to) + [Reverse(p)]
    ensures id != p.from && id != p.to ==> SegmentConnections(known, paths + [p], id) == SegmentConnections(known, paths, id)
  {
    assert (paths + [p])[..|paths|] == paths;
  }

  /** A segment with an endpoint that names no building adds nothing. */
  lemma UnknownEndpointAddsNothing(known: set<string>, paths: seq<PathRecord>, p: PathRecord, id: string)
    requires p.from !in known || p.to !in known
    ensures SegmentConnections(known, paths + [p], id) == SegmentConnections(known, paths, id)
  {
    assert (paths + [p])[..|paths|] == paths;
  }

  /** The same connections, pointed at `target`. */
  function Retarget(conns: seq<Connection>, target: string): (r: seq<Connection>)
    ensures |r| == |conns|
    ensures forall i :: 0 <= i < |r| ==> r[i] == conns[i].(nodeId := target)
  {
    seq(|conns|, i requires 0 <= i < |conns| => conns[i].(nodeId := target))
  }

  /**
    Between two distinct buildings, the connections from `a` to `b` and those
    from `b` to `a` come in the same order and differ only in their target.
   */
  lemma {:induction false} ConnectionsMirror(known: set<string>, paths: seq<PathRecord>, a: string, b: string)
    requires a != b
    ensures PathStatus.Toward(SegmentConnections(known, paths, a), b) == Retarget(PathStatus.Toward(SegmentConnections(known, paths, b), a), b)
    decreases |paths|
  {
    if |paths| > 0 {
      var front, p := paths[..|paths| - 1], paths[|paths| - 1];
      ConnectionsMirror(known, front, a, b);
      var extra := if p.from in known && p.to in known then Contribution(p, a) else [];
      var extra' := if p.from in known && p.to in known then Contribution(p, b) else [];
      PathStatus.TowardAppend(SegmentConnections(known, front, a), extra, b);
      PathStatus.TowardAppend(SegmentConnections(known, front, b), extra', a);
      ContributionMirror(p, a, b);
      RetargetAppend(PathStatus.Toward(SegmentConnections(known, front, b), a), PathStatus.Toward(extra', a), b);
    }
  }

  /** One segment gives `a` a connection to `b` exactly when it gives `b` one to `a`, alike but for the target. */
  lemma ContributionMirror(p: PathRecord, a: string, b: string)
    requires a != b
    ensures PathStatus.Toward(Contribution(p, a), b) == Retarget(PathStatus.Toward(Contribution(p, b), a), b)
  {
    var forward, reverse := (if p.from == a then [Forward(p)] else []), (if p.to == a then [Reverse(p)] else []);
    var forward', reverse' := (if p.from == b then [Forward(p)] else []), (if p.to == b then [Reverse(p)] else []);
    PathStatus.TowardAppend(forward, reverse, b);
    PathStatus.TowardAppend(forward', reverse', a);
    assert PathStatus.Toward([] , b) == [];
  }

  lemma RetargetAppend(x: seq<Connection>, y: seq<Connection>, target: string)
    ensures Retarget(x + y, target) == Retarget(x, target) + Retarget(y, target)
  {
  }

  /**
    A graph whose every node holds its reference connections has agreeing
    connection lists between every two distinct buildings, parallel segments
    included.
   */
  lemma BuiltMirrored(g: Graph, known: set<string>, paths: seq<PathRecord>)
    requires forall k :: k in g ==> g[k].connections == SegmentConnections(known, paths, k)
    ensures PathStatus.Mirrored(g)
  {
    forall a, b | a in g && b in g && a != b
      ensures PathStatus.AgreeAll(PathStatus.Toward(g[a].connections, b), PathStatus.Toward(g[b].connections, a))
    {
      ConnectionsMirror(known, paths, a, b);
      var forward, reverse := PathStatus.Toward(g[a].connections, b), PathStatus.Toward(g[b].connections, a);
      assert forward == Retarget(reverse, b);
      forall k | 0 <= k < |forward|
        ensures PathStatus.Agree(forward[k], reverse[k])
      {
        assert forward[k] == reverse[k].(nodeId := b);
      }
    }
  }

  /**
    A graph whose every node holds its reference connections keeps both
    directions of every single segment in agreement.
   */
  lemma BuiltGraphSynchronized(g: Graph, known: set<string>, paths: seq<PathRecord>)
    requires forall k :: k in g ==> g[k].connections == SegmentConnections(known, paths, k)
    ensures PathStatus.Synchronized(g)
  {
    forall a, b, i, j | PathStatus.SingleSegment(g, a, b, i, j)
      ensures PathStatus.Agree(g[a].connections[i], g[b].connections[j])
    {
      if a != b {
        PathStatus.TowardOnly(g[a].connections, b, i);
        PathStatus.TowardOnly(g[b].connections, a, j);
        ConnectionsMirror(known, paths, a, b);
        assert Retarget([g[b].connections[j]], b)[0] == g[a].connections[i];
      }
    }
  }
}

=== FILE: optional.dfy ===
/** The optional value used wherever the source returns `null` or `undefined`. */
module Optional {

  datatype Option<+T> = None | Some(value: T)

}

=== FILE: path_finder.dfy ===
/**
  The `PathFinder` class of the routing engine: the node index built by its
  constructor, `findShortestPath`, `findAlternativeRoutes`, `updatePathStatus`
  and the accessibility predicate consulted when accessible routes are
  preferred.
 */
module PathFinding {
  import opened Optional
  import opened CampusGraph
  import Dijkstra
  import PathStatus
  import GraphBuilder

  /** A route: node ids from start to destination, its distance, the walking time and one coordinate per node. */
  datatype PathResult = PathResult(path: seq<string>, distance: real, estimatedTime: int, waypoints: seq<Position>)

  /**
    The engine: its node index and the predicate deciding whether the
    connection between two nodes is accessible (`isAccessibleConnection`).
   */
  datatype PathFinder = PathFinder(graph: Graph, isAccessibleConnection: (GraphNode, GraphNode) -> bool)

  /** The source's accessibility predicate, a placeholder that accepts every connection. */
  function AlwaysAccessible(from: GraphNode, to: GraphNode): (accessible: bool)
    ensures accessible
  {
    true
  }

  /** Walking speed in metres per minute. */
  const WalkingSpeed: real := 80.0

  /** `Math.ceil`. */
  function Ceiling(x: real): (c: int)
    ensures (c - 1) as real < x <= c as real
  {
    -((-x).Floor)
  }

  /** `Math.ceil(distance / 80)`: whole minutes needed to walk `distance` metres. */
  function WalkingMinutes(distance: real): (minutes: int)
    ensures (minutes - 1) as real * WalkingSpeed < distance <= minutes as real * WalkingSpeed
  {
    Ceiling(distance / WalkingSpeed)
  }

  /** The ids of a node list. */
  function Ids(nodes: seq<GraphNode>): set<string>
  {
    set n | n in nodes :: n.id
  }

  /** No node after position `i` shares its id. */
  ghost predicate LastWithId(nodes: seq<GraphNode>, i: int)
  {
    && 0 <= i < |nodes|
    && forall j :: i < j < |nodes| ==> nodes[j].id != nodes[i].id
  }

  /**
    The constructor's index: `graph.set(node.id, node)` for each node in turn,
    so of several nodes with one id the last is kept.
   */
  function IndexNodes(nodes: seq<GraphNode>): (g: Graph)
    ensures g.Keys == Ids(nodes)
    ensures forall k :: k in g ==> g[k].id == k
    decreases |nodes|
  {
    if |nodes| == 0 then
      map[]
    else
      var front, last := nodes[..|nodes| - 1], nodes[|nodes| - 1];
      assert Ids(nodes) == Ids(front) + {last.id} by {
        assert nodes == front + [last];
      }
      IndexNodes(front)[last.id := last]
  }

  /** The node the index keeps for an id is the last node carrying it. */
  lemma {:induction false} LastNodeWins(nodes: seq<GraphNode>, i: int)
    requires LastWithId(nodes, i)
    ensures nodes[i].id in IndexNodes(nodes) && IndexNodes(nodes)[nodes[i].id] == nodes[i]
    decreases |nodes|
  {
    if i < |nodes| - 1 {
      assert LastWithId(nodes[..|nodes| - 1], i);
      LastNodeWins(nodes[..|nodes| - 1], i);
    }
  }

  /** Every id in the index belongs to a node that no later node shares it with. */
  lemma {:induction false} IndexedNodeIsLast(nodes: seq<GraphNode>, k: string) returns (i: int)
    requires k in IndexNodes(nodes)
    ensures LastWithId(nodes, i) && nodes[i].id == k
    decreases |nodes|
  {
    assert k in Ids(nodes);
    var carrier :| carrier in nodes && carrier.id == k;
    var front, last := nodes[..|nodes| - 1], nodes[|nodes| - 1];
    if last.id == k {
      i := |nodes| - 1;
    } else {
      assert k in IndexNodes(front) by {
        assert IndexNodes(nodes) == IndexNodes(front)[last.id := last];
      }
      i := IndexedNodeIsLast(front, k);
      forall j | i < j < |nodes|
        ensures nodes[j].id != nodes[i].id
      {
        if j < |nodes| - 1 {
          assert nodes[j] == front[j];
        }
      }
    }
  }

  /** `new PathFinder(nodes)`: the index of `nodes`, with the placeholder accessibility predicate. */
  function NewPathFinder(nodes: seq<GraphNode>): (pf: PathFinder)
    ensures pf.graph.Keys == Ids(nodes)
    ensures forall i :: LastWithId(nodes, i) ==> pf.graph[nodes[i].id] == nodes[i]
    ensures forall a, b :: pf.isAccessibleConnection(a, b)
  {
    LastNodesWin(nodes);
    PathFinder(IndexNodes(nodes), AlwaysAccessible)
  }

  lemma LastNodesWin(nodes: seq<GraphNode>)
    ensures forall i :: LastWithId(nodes, i) ==> nodes[i].id in IndexNodes(nodes) && IndexNodes(nodes)[nodes[i].id] == nodes[i]
  {
    forall i | LastWithId(nodes, i)
      ensures nodes[i].id in IndexNodes(nodes) && IndexNodes(nodes)[nodes[i].id] == nodes[i]
    {
      LastNodeWins(nodes, i);
    }
  }

  /** How a query of `pf` weighs connections. */
  function QueryPreference(pf: PathFinder, preferAccessible: bool): Preference
  {
    Preference(preferAccessible, pf.isAccessibleConnection)
  }

  /**
    What every returned route satisfies: it ends at `end`, consecutive nodes
    are joined by available connections, there is one waypoint per node, and
    the time is the distance at walking speed rounded up.
   */
  ghost predicate WellFormedRoute(g: Graph, end: string, r: PathResult)
  {
    && |r.path| >= 1
    && r.path[|r.path| - 1] == end
    && (exists hops :: IsWalk(g, r.path, hops))
    && |r.waypoints| == |r.path|
    && (forall i :: 0 <= i < |r.path| ==> r.path[i] in g && r.waypoints[i] == g[r.path[i]].position)
    && (r.estimatedTime - 1) as real * WalkingSpeed < r.distance <= r.estimatedTime as real * WalkingSpeed
  }

  /** The route starts at `start`, takes at least one hop, and its distance is the weight of its walk. */
  ghost predicate RouteFrom(g: Graph, pref: Preference, start: string, r: PathResult)
  {
    && |r.path| >= 2
    && r.path[0] == start
    && exists hops :: IsWalk(g, r.path, hops) && WalkWeight(g, pref, r.path, hops) == r.distance
  }

  /** Some walk from `start` to `end` weighs exactly `d`. */
  ghost predicate Attained(g: Graph, pref: Preference, start: string, end: string, d: real)
  {
    exists p, hops :: IsWalk(g, p, hops) && p[0] == start && p[|p| - 1] == end && WalkWeight(g, pref, p, hops) == d
  }

  /** No walk from `start` to `end` weighs less than `d`. */
  ghost predicate NoShorterWalk(g: Graph, pref: Preference, start: string, end: string, d: real)
  {
    forall p, hops :: IsWalk(g, p, hops) && p[0] == start && p[|p| - 1] == end ==> d <= WalkWeight(g, pref, p, hops)
  }

  /** The search gives no route exactly when start and destination coincide, the start is no node, or nothing leads there. */
  ghost predicate NoRouteCase(g: Graph, start: string, end: string)
  {
    start == end || start !in g || !Reachable(g, start, end)
  }

  /**
    `findShortestPath(startId, endId, preferAccessible)`. With non-negative
    distances the route is a shortest one. The route starts at `startId`
    unless some node has the empty id, which cuts the walk back short.
   */
  method FindShortestPath(pf: PathFinder, startId: string, endId: string, preferAccessible: bool)
    returns (result: Option<PathResult>)
    ensures result.None? <==> NoRouteCase(pf.graph, startId, endId)
    ensures result.Some? ==> WellFormedRoute(pf.graph, endId, result.value)
    ensures result.Some? ==> Attained(pf.graph, QueryPreference(pf, preferAccessible), startId, endId, result.value.distance)
    ensures result.Some? && "" !in pf.graph ==> RouteFrom(pf.graph, QueryPreference(pf, preferAccessible), startId, result.value)
    ensures result.Some? && NonNegative(pf.graph) ==>
      NoShorterWalk(pf.graph, QueryPreference(pf, preferAccessible), startId, endId, result.value.distance)
  {
    var g, pref := pf.graph, QueryPreference(pf, preferAccessible);
    var dist, prev, via, unvisited, rank, count := Dijkstra.Search(g, pref, startId, endId);
    if endId !in prev {
      Dijkstra.NoPredecessorNoRoute(g, pref, startId, endId, dist, prev, via, unvisited, rank, count);
      return None;
    }
    Dijkstra.PredecessorMeansRoute(g, pref, startId, endId, dist, prev, via, unvisited, rank, count);
    if NonNegative(g) {
      Dijkstra.PredecessorMeansShortest(g, pref, startId, endId, dist, prev, via, unvisited, rank, count);
    }
    ghost var p, ph := Dijkstra.ChainWalk(g, pref, startId, endId, dist, prev, via, unvisited, rank, count, endId);
    var path, hops := Dijkstra.TracePath(g, pref, startId, endId, dist, prev, via, unvisited, rank, count);
    var waypoints := seq(|path|, i requires 0 <= i < |path| => g[path[i]].position);
    var totalDistance := dist[endId];
    result := Some(PathResult(path, totalDistance, WalkingMinutes(totalDistance), waypoints));
  }

  /**
    `findAlternativeRoutes(startId, endId, maxRoutes)`: the primary route
    alone, or nothing; `maxRoutes` is not consulted.
   */
  method FindAlternativeRoutes(pf: PathFinder, startId: string, endId: string, maxRoutes: int)
    returns (routes: seq<PathResult>)
    ensures |routes| <= 1
    ensures |routes| == 0 <==> NoRouteCase(pf.graph, startId, endId)
    ensures forall k :: 0 <= k < |routes| ==> WellFormedRoute(pf.graph, endId, routes[k])
    ensures forall k :: 0 <= k < |routes| ==> Attained(pf.graph, QueryPreference(pf, false), startId, endId, routes[k].distance)
    ensures forall k :: 0 <= k < |routes| && "" !in pf.graph ==> RouteFrom(pf.graph, QueryPreference(pf, false), startId, routes[k])
    ensures forall k :: 0 <= k < |routes| && NonNegative(pf.graph) ==>
      NoShorterWalk(pf.graph, QueryPreference(pf, false), startId, endId, routes[k].distance)
  {
    routes := [];
    var mainRoute := FindShortestPath(pf, startId, endId, false);
    if mainRoute.Some? {
      routes := routes + [mainRoute.value];
    }
  }

  /** `updatePathStatus(fromNodeId, toNodeId, isAvailable)`. */
  function UpdatePathStatus(pf: PathFinder, fromNodeId: string, toNodeId: string, isAvailable: bool): (pf': PathFinder)
    ensures pf'.graph.Keys == pf.graph.Keys
    ensures forall k :: k in pf.graph ==> PathStatus.SameNodeButAvailability(pf.graph[k], pf'.graph[k])
    ensures forall k, j :: k in pf.graph && PathStatus.Targeted(pf.graph, fromNodeId, toNodeId, k, j) ==>
      j < |pf'.graph[k].connections| && pf'.graph[k].connections[j].isAvailable == isAvailable
    ensures forall k, j :: k in pf.graph && 0 <= j < |pf.graph[k].connections| && !PathStatus.Targeted(pf.graph, fromNodeId, toNodeId, k, j) ==>
      j < |pf'.graph[k].connections| && pf'.graph[k].connections[j] == pf.graph[k].connections[j]
    ensures forall a, b :: pf'.isAccessibleConnection(a, b) == pf.isAccessibleConnection(a, b)
  {
    pf.(graph := PathStatus.UpdateGraph(pf.graph, fromNodeId, toNodeId, isAvailable))
  }

  /**
    With a penalty-free accessibility predicate (such as the placeholder),
    preferring accessible routes changes neither whether a route exists nor,
    for non-negative distances, its distance.
   */
  method PreferAccessibleIsNeutral(pf: PathFinder, startId: string, endId: string)
    returns (plain: Option<PathResult>, accessible: Option<PathResult>)
    requires forall a, b :: pf.isAccessibleConnection(a, b)
    ensures plain.None? <==> accessible.None?
    ensures plain.Some? && accessible.Some? && NonNegative(pf.graph) ==> plain.value.distance == accessible.value.distance
  {
    plain := FindShortestPath(pf, startId, endId, false);
    accessible := FindShortestPath(pf, startId, endId, true);
    if plain.Some? && accessible.Some? && NonNegative(pf.graph) {
      var g, pPlain, pAccessible := pf.graph, QueryPreference(pf, false), QueryPreference(pf, true);
      var a, ah :| IsWalk(g, a, ah) && a[0] == startId && a[|a| - 1] == endId && WalkWeight(g, pPlain, a, ah) == plain.value.distance;
      var b, bh :| IsWalk(g, b, bh) && b[0] == startId && b[|b| - 1] == endId && WalkWeight(g, pAccessible, b, bh) == accessible.value.distance;
      PenaltyFreeWalkWeight(g, pPlain, pAccessible, a, ah);
      PenaltyFreeWalkWeight(g, pPlain, pAccessible, b, bh);
    }
  }

  /**
    With non-negative distances, preferring accessible routes never yields a
    shorter distance than the plain query, and both find a route in the same cases.
   */
  method PreferAccessibleNeverShorter(pf: PathFinder, startId: string, endId: string)
    returns (plain: Option<PathResult>, accessible: Option<PathResult>)
    ensures plain.None? <==> accessible.None?
    ensures plain.Some? && accessible.Some? && NonNegative(pf.graph) ==> plain.value.distance <= accessible.value.distance
  {
    plain := FindShortestPath(pf, startId, endId, false);
    accessible := FindShortestPath(pf, startId, endId, true);
    if plain.Some? && accessible.Some? && NonNegative(pf.graph) {
      var g, pAccessible := pf.graph, QueryPreference(pf, true);
      assert QueryPreference(pf, false) == pAccessible.(preferAccessible := false);
      var b, bh :| IsWalk(g, b, bh) && b[0] == startId && b[|b| - 1] == endId && WalkWeight(g, pAccessible, b, bh) == accessible.value.distance;
      PenaltyNeverShortens(g, pAccessible, b, bh);
    }
  }

  /**
    Closing a segment and then searching: when each endpoint holds at most one
    connection to the other, no returned route steps directly between them.
   */
  method RouteAfterClosing(pf: PathFinder, a: string, b: string, startId: string, endId: string, preferAccessible: bool)
    returns (closed: PathFinder, result: Option<PathResult>)
    requires a in pf.graph ==> forall i, k :: 0 <= i < k < |pf.graph[a].connections| ==>
      pf.graph[a].connections[i].nodeId != b || pf.graph[a].connections[k].nodeId != b
    requires b in pf.graph ==> forall i, k :: 0 <= i < k < |pf.graph[b].connections| ==>
      pf.graph[b].connections[i].nodeId != a || pf.graph[b].connections[k].nodeId != a
    ensures closed == UpdatePathStatus(pf, a, b, false)
    ensures result.None? <==> NoRouteCase(closed.graph, startId, endId)
    ensures result.Some? ==> forall k :: 0 <= k < |result.value.path| - 1 ==>
      !(result.value.path[k] == a && result.value.path[k + 1] == b) && !(result.value.path[k] == b && result.value.path[k + 1] == a)
  {
    closed := UpdatePathStatus(pf, a, b, false);
    result := FindShortestPath(closed, startId, endId, preferAccessible);
    if result.Some? {
      PathStatus.ClosedSegmentHasNoHop(pf.graph, a, b);
      WalkAvoidsMissingHops(closed.graph, result.value.path, a, b);
    }
  }

  /** A walk never steps between two nodes that no available connection joins. */
  lemma WalkAvoidsMissingHops(g: Graph, path: seq<string>, a: string, b: string)
    requires exists hops :: IsWalk(g, path, hops)
    requires forall u, i, w :: IsHop(g, u, i, w) ==> !(u == a && w == b) && !(u == b && w == a)
    ensures forall k :: 0 <= k < |path| - 1 ==> !(path[k] == a && path[k + 1] == b) && !(path[k] == b && path[k + 1] == a)
  {
    var hops :| IsWalk(g, path, hops);
    forall k | 0 <= k < |path| - 1
      ensures !(path[k] == a && path[k + 1] == b) && !(path[k] == b && path[k + 1] == a)
    {
      assert IsHop(g, path[k], hops[k], path[k + 1]);
    }
  }

  /**
    The engine over `buildGraph`'s nodes: one entry per building id holding
    the connections of the segments that touch it, with both directions of
    every single segment in agreement.
   */
  method LoadCampus(buildings: seq<GraphBuilder.Building>, paths: seq<GraphBuilder.PathRecord>) returns (pf: PathFinder)
    ensures pf.graph.Keys == GraphBuilder.BuildingIds(buildings)
    ensures forall k :: k in pf.graph ==> pf.graph[k].connections == GraphBuilder.SegmentConnections(GraphBuilder.BuildingIds(buildings), paths, k)
    ensures PathStatus.Synchronized(pf.graph)
    ensures PathStatus.Mirrored(pf.graph)
    ensures forall a, b :: pf.isAccessibleConnection(a, b)
  {
    var nodes := GraphBuilder.BuildGraph(buildings, paths);
    pf := NewPathFinder(nodes);
    ghost var known := GraphBuilder.BuildingIds(buildings);
    assert Ids(nodes) == known by {
      forall id | id in known ensures id in Ids(nodes) {
        var k :| 0 <= k < |buildings| && buildings[k].id == id;
        assert GraphBuilder.NodeWired(buildings, k, nodes[k], paths);
      }
      forall id | id in Ids(nodes) ensures id in known {
        var k :| 0 <= k < |nodes| && nodes[k].id == id;
        assert GraphBuilder.NodeWired(buildings, k, nodes[k], paths);
      }
    }
    forall k | k in pf.graph
      ensures pf.graph[k].connections == GraphBuilder.SegmentConnections(known, paths, k)
    {
      var i := IndexedNodeIsLast(nodes, k);
      LastNodeWins(nodes, i);
      assert GraphBuilder.NodeWired(buildings, i, nodes[i], paths);
      assert GraphBuilder.LastIn(buildings, i, |buildings|) by {
        forall j | i < j < |buildings| ensures buildings[j].id != buildings[i].id {
          assert GraphBuilder.NodeWired(buildings, j, nodes[j], paths);
        }
      }
    }
    GraphBuilder.BuiltGraphSynchronized(pf.graph, known, paths);
    GraphBuilder.BuiltMirrored(pf.graph, known, paths);
  }
}

=== FILE: path_status.dfy ===
/**
  `PathFinder.updatePathStatus`: an operator opens or closes the connection
  between two nodes. The source mutates the connection objects in place; here
  the update returns the new node map.
 */
module PathStatus {
  import opened Optional
  import opened CampusGraph

  /** `j` is the position of the first connection to `target`, the one `Array.prototype.find` returns. */
  ghost predicate IsFirstTo(conns: seq<Connection>, target: string, j: int)
  {
    && 0 <= j < |conns|
    && conns[j].nodeId == target
    && forall k :: 0 <= k < j ==> conns[k].nodeId != target
  }

  /** `conns.find(c => c.nodeId === target)`, as a position. */
  function FirstConnectionTo(conns: seq<Connection>, target: string): (r: Option<nat>)
    ensures r.Some? ==> IsFirstTo(conns, target, r.value)
    ensures r.None? ==> forall k :: 0 <= k < |conns| ==> conns[k].nodeId != target
    decreases |conns|
  {
    if |conns| == 0 then
      None
    else if conns[0].nodeId == target then
      Some(0)
    else
      match FirstConnectionTo(conns[1..], target)
      case None => None
      case Some(k) => Some(k + 1)
  }

  /** Two connection lists that differ at most in availability. */
  ghost predicate SameButAvailability(conns: seq<Connection>, conns': seq<Connection>)
  {
    && |conns'| == |conns|
    && forall j :: 0 <= j < |conns| ==> conns'[j] == conns[j].(isAvailable := conns'[j].isAvailable)
  }

  /** The connection list after setting availability `v` on the first connection to `target`. */
  function SetFirstAvailability(conns: seq<Connection>, target: string, v: bool): (r: seq<Connection>)
    ensures SameButAvailability(conns, r)
    ensures forall j :: IsFirstTo(conns, target, j) ==> r[j].isAvailable == v
    ensures forall j :: 0 <= j < |conns| && !IsFirstTo(conns, target, j) ==> r[j] == conns[j]
  {
    match FirstConnectionTo(conns, target)
    case None => conns
    case Some(j) => conns[j := conns[j].(isAvailable := v)]
  }

  /** Connection `j` of node `k` is one the update from `from` to `to` sets. */
  ghost predicate Targeted(g: Graph, from: string, to: string, k: string, j: int)
  {
    || (k == from && from in g && IsFirstTo(g[from].connections, to, j))
    || (k == to && to in g && IsFirstTo(g[to].connections, from, j))
  }

  /** The node is unchanged except, possibly, for the availability of its connections. */
  ghost predicate SameNodeButAvailability(n: GraphNode, n': GraphNode)
  {
    && n'.id == n.id
    && n'.buildingId == n.buildingId
    && n'.position == n.position
    && SameButAvailability(n.connections, n'.connections)
  }

  /** Only availability differs, so the first connection to any target sits at the same position. */
  lemma SameFirstConnection(conns: seq<Connection>, conns': seq<Connection>, target: string)
    requires SameButAvailability(conns, conns')
    ensures forall j :: IsFirstTo(conns', target, j) <==> IsFirstTo(conns, target, j)
  {
    assert forall k :: 0 <= k < |conns| ==> conns'[k].nodeId == conns[k].nodeId;
  }

  lemma KeepsFirstConnections(g: Graph, g': Graph, key: string, target: string)
    requires g'.Keys == g.Keys
    requires forall k :: k in g ==> SameNodeButAvailability(g[k], g'[k])
    ensures key in g ==> forall j :: IsFirstTo(g'[key].connections, target, j) <==> IsFirstTo(g[key].connections, target, j)
  {
    if key in g {
      SameFirstConnection(g[key].connections, g'[key].connections, target);
    }
  }

  /** One half of the update: the first connection of node `key` to `target` gets availability `v`. */
  function UpdateHalf(g: Graph, key: string, target: string, v: bool): (g': Graph)
    ensures g'.Keys == g.Keys
    ensures forall k :: k in g ==> SameNodeButAvailability(g[k], g'[k])
    ensures forall j :: key in g && IsFirstTo(g[key].connections, target, j) ==>
      j < |g'[key].connections| && g'[key].connections[j].isAvailable == v
    ensures forall k, j :: k in g && 0 <= j < |g[k].connections| && !(k == key && IsFirstTo(g[key].connections, target, j)) ==>
      j < |g'[k].connections| && g'[k].connections[j] == g[k].connections[j]
  {
    if key in g then g[key := g[key].(connections := SetFirstAvailability(g[key].connections, target, v))] else g
  }

  /**
    `updatePathStatus(from, to, v)`: the first `from -> to` connection and the
    first `to -> from` connection get availability `v`. A missing node or
    connection leaves that half without effect.
   */
  function UpdateGraph(g: Graph, from: string, to: string, v: bool): (g': Graph)
    ensures g'.Keys == g.Keys
    ensures forall k :: k in g ==> SameNodeButAvailability(g[k], g'[k])
    ensures forall k, j :: k in g && Targeted(g, from, to, k, j) ==>
      j < |g'[k].connections| && g'[k].connections[j].isAvailable == v
    ensures forall k, j :: k in g && 0 <= j < |g[k].connections| && !Targeted(g, from, to, k, j) ==>
      j < |g'[k].connections| && g'[k].connections[j] == g[k].connections[j]
  {
    var g1 := UpdateHalf(g, from, to, v);
    var g2 := UpdateHalf(g1, to, from, v);
    UpdateHalfSpec(g, from, to, v);
    UpdateHalfSpec(g1, to, from, v);
    ComposeHalves(g, from, to, v, g1, g2);
    g2
  }

  /** What `UpdateHalf(g, key, target, v)` promises of its result `g'`. */
  ghost predicate HalfUpdated(g: Graph, g': Graph, key: string, target: string, v: bool)
  {
    && g'.Keys == g.Keys
    && (forall k :: k in g ==> SameNodeButAvailability(g[k], g'[k]))
    && (forall j :: key in g && IsFirstTo(g[key].connections, target, j) ==>
          j < |g'[key].connections| && g'[key].connections[j].isAvailable == v)
    && (forall k, j {:trigger g'[k].connections[j]} :: k in g && 0 <= j < |g[k].connections| && !(k == key && IsFirstTo(g[key].connections, target, j)) ==>
          j < |g'[k].connections| && g'[k].connections[j] == g[k].connections[j])
  }

  lemma UpdateHalfSpec(g: Graph, key: string, target: string, v: bool)
    ensures HalfUpdated(g, UpdateHalf(g, key, target, v), key, target, v)
  {
  }

  /** What `UpdateGraph(g, from, to, v)` promises of its result `g'`. */
  ghost predicate Updated(g: Graph, g': Graph, from: string, to: string, v: bool)
  {
    && g'.Keys == g.Keys
    && (forall k :: k in g ==> SameNodeButAvailability(g[k], g'[k]))
    && (forall k, j :: k in g && Targeted(g, from, to, k, j) ==>
          j < |g'[k].connections| && g'[k].connections[j].isAvailable == v)
    && (forall k, j {:trigger g'[k].connections[j]} :: k in g && 0 <= j < |g[k].connections| && !Targeted(g, from, to, k, j) ==>
          j < |g'[k].connections| && g'[k].connections[j] == g[k].connections[j])
  }

  /** The two halves together set exactly the targeted connections. */
  lemma ComposeHalves(g: Graph, from: string, to: string, v: bool, g1: Graph, g2: Graph)
    requires HalfUpdated(g, g1, from, to, v) && HalfUpdated(g1, g2, to, from, v)
    ensures Updated(g, g2, from, to, v)
  {
    KeepsFirstConnections(g, g1, to, from);
    forall k | k in g
      ensures SameNodeButAvailability(g[k], g2[k])
    {
      assert SameNodeButAvailability(g[k], g1[k]);
      assert SameNodeButAvailability(g1[k], g2[k]);
    }
    forall k, j | k in g && Targeted(g, from, to, k, j)
      ensures j < |g2[k].connections| && g2[k].connections[j].isAvailable == v
    {
      assert SameNodeButAvailability(g[k], g1[k]);
      if k == to && IsFirstTo(g[to].connections, from, j) {
        assert IsFirstTo(g1[to].connections, from, j);
      } else {
        assert g1[k].connections[j].isAvailable == v;
        assert g2[k].connections[j] == g1[k].connections[j];
      }
    }
    forall k, j | k in g && 0 <= j < |g[k].connections| && !Targeted(g, from, to, k, j)
      ensures j < |g2[k].connections| && g2[k].connections[j] == g[k].connections[j]
    {
      assert SameNodeButAvailability(g[k], g1[k]);
      assert g1[k].connections[j] == g[k].connections[j];
      assert !(k == to && IsFirstTo(g1[to].connections, from, j));
    }
  }

  /** Two graphs with the same nodes and the same connection lists are equal. */
  lemma GraphExtensionality(g1: Graph, g2: Graph)
    requires g1.Keys == g2.Keys
    requires forall k :: k in g1 ==> SameNodeButAvailability(g1[k], g2[k])
    requires forall k, j :: k in g1 && 0 <= j < |g1[k].connections| && j < |g2[k].connections| ==>
      g1[k].connections[j].isAvailable == g2[k].connections[j].isAvailable
    ensures g1 == g2
  {
    forall k | k in g1
      ensures g1[k] == g2[k]
    {
      assert g1[k].connections == g2[k].connections;
    }
  }

  /** Two updates of the same pair: the later availability wins. */
  lemma LastUpdateWins(g: Graph, from: string, to: string, v1: bool, v2: bool)
    ensures UpdateGraph(UpdateGraph(g, from, to, v1), from, to, v2) == UpdateGraph(g, from, to, v2)
  {
    var g1 := UpdateGraph(g, from, to, v1);
    var g12, g2 := UpdateGraph(g1, from, to, v2), UpdateGraph(g, from, to, v2);
    assert Updated(g, g1, from, to, v1) && Updated(g1, g12, from, to, v2) && Updated(g, g2, from, to, v2);
    UpdatesCompose(g, from, to, v1, v2, g1, g12, g2);
  }

  /** Any result of updating twice equals any result of the second update alone. */
  lemma UpdatesCompose(g: Graph, from: string, to: string, v1: bool, v2: bool, g1: Graph, g12: Graph, g2: Graph)
    requires Updated(g, g1, from, to, v1) && Updated(g1, g12, from, to, v2) && Updated(g, g2, from, to, v2)
    ensures g12 == g2
  {
    KeepsFirstConnections(g, g1, from, to);
    KeepsFirstConnections(g, g1, to, from);
    forall k | k in g
      ensures SameNodeButAvailability(g12[k], g2[k])
      ensures forall j :: 0 <= j < |g12[k].connections| ==> g12[k].connections[j].isAvailable == g2[k].connections[j].isAvailable
    {
      assert SameNodeButAvailability(g[k], g1[k]);
      assert SameNodeButAvailability(g1[k], g12[k]);
      assert SameNodeButAvailability(g[k], g2[k]);
      forall j | 0 <= j < |g12[k].connections|
        ensures g12[k].connections[j].isAvailable == g2[k].connections[j].isAvailable
      {
        if Targeted(g, from, to, k, j) {
          assert Targeted(g1, from, to, k, j);
        } else {
          assert !Targeted(g1, from, to, k, j);
        }
      }
    }
    GraphExtensionality(g12, g2);
  }

  /** Repeating an update changes nothing more. */
  lemma UpdateIdempotent(g: Graph, from: string, to: string, v: bool)
    ensures UpdateGraph(UpdateGraph(g, from, to, v), from, to, v) == UpdateGraph(g, from, to, v)
  {
    LastUpdateWins(g, from, to, v, v);
  }

  /** Setting the availability the targeted connections already have leaves the graph as it was. */
  lemma UpdateToCurrentIsNoop(g: Graph, from: string, to: string, v: bool)
    requires forall k, j :: k in g && Targeted(g, from, to, k, j) ==> g[k].connections[j].isAvailable == v
    ensures UpdateGraph(g, from, to, v) == g
  {
    GraphExtensionality(UpdateGraph(g, from, to, v), g);
  }

  /** Closing an open segment and opening it again restores the graph exactly. */
  lemma CloseThenReopenRestores(g: Graph, from: string, to: string)
    requires forall k, j :: k in g && Targeted(g, from, to, k, j) ==> g[k].connections[j].isAvailable
    ensures UpdateGraph(UpdateGraph(g, from, to, false), from, to, true) == g
  {
    LastUpdateWins(g, from, to, false, true);
    UpdateToCurrentIsNoop(g, from, to, true);
  }

  /** Naming a node or connection that does not exist makes the whole update a no-op. */
  lemma UnknownSegmentIsNoop(g: Graph, from: string, to: string, v: bool)
    requires from in g ==> forall j :: 0 <= j < |g[from].connections| ==> g[from].connections[j].nodeId != to
    requires to in g ==> forall j :: 0 <= j < |g[to].connections| ==> g[to].connections[j].nodeId != from
    ensures UpdateGraph(g, from, to, v) == g
  {
    UpdateToCurrentIsNoop(g, from, to, v);
  }

  /** `j` is the one and only connection in `conns` to `target`. */
  ghost predicate OnlyConnectionTo(conns: seq<Connection>, target: string, j: int)
  {
    && 0 <= j < |conns|
    && conns[j].nodeId == target
    && forall k :: 0 <= k < |conns| && k != j ==> conns[k].nodeId != target
  }

  /** `a` and `b` are joined by exactly one connection in each direction: `i` at `a`, `j` at `b`. */
  ghost predicate SingleSegment(g: Graph, a: string, b: string, i: int, j: int)
  {
    && a in g
    && b in g
    && OnlyConnectionTo(g[a].connections, b, i)
    && OnlyConnectionTo(g[b].connections, a, j)
  }

  /** The two directions of one segment carry the same availability, distance and path id. */
  predicate Agree(forward: Connection, reverse: Connection)
  {
    && forward.isAvailable == reverse.isAvailable
    && forward.distance == reverse.distance
    && forward.pathId == reverse.pathId
  }

  /** Every pair of nodes joined by a single segment has agreeing directions. */
  ghost predicate Synchronized(g: Graph)
  {
    forall a, b, i, j :: SingleSegment(g, a, b, i, j) ==> Agree(g[a].connections[i], g[b].connections[j])
  }

  /** Updating a pair joined by a single segment sets both of its directions. */
  lemma UpdateSetsBothDirections(g: Graph, a: string, b: string, i: int, j: int, v: bool)
    requires SingleSegment(g, a, b, i, j)
    ensures UpdateGraph(g, a, b, v)[a].connections[i].isAvailable == v
    ensures UpdateGraph(g, a, b, v)[b].connections[j].isAvailable == v
  {
    assert Targeted(g, a, b, a, i);
    assert Targeted(g, a, b, b, j);
  }

  /** An update keeps every single segment's two directions in agreement. */
  lemma UpdateKeepsSynchronized(g: Graph, from: string, to: string, v: bool)
    requires Synchronized(g)
    ensures Synchronized(UpdateGraph(g, from, to, v))
  {
    var g' := UpdateGraph(g, from, to, v);
    assert Updated(g, g', from, to, v);
    UpdatedStaysSynchronized(g, from, to, v, g');
  }

  /** Any result of an update of a synchronized graph is synchronized. */
  lemma UpdatedStaysSynchronized(g: Graph, from: string, to: string, v: bool, g': Graph)
    requires Synchronized(g) && Updated(g, g', from, to, v)
    ensures Synchronized(g')
  {
    forall a, b, i, j | SingleSegment(g', a, b, i, j)
      ensures Agree(g'[a].connections[i], g'[b].connections[j])
    {
      assert SingleSegment(g, a, b, i, j);
      if (a == from && b == to) || (a == to && b == from) {
        assert Targeted(g, from, to, a, i);
        assert Targeted(g, from, to, b, j);
      } else {
        assert !Targeted(g, from, to, a, i);
        assert !Targeted(g, from, to, b, j);
      }
    }
  }

  /** The connections of a list that lead to `target`, in order. */
  function Toward(conns: seq<Connection>, target: string): (r: seq<Connection>)
    ensures |r| <= |conns|
    decreases |conns|
  {
    if |conns| == 0 then
      []
    else
      var last := conns[|conns| - 1];
      Toward(conns[..|conns| - 1], target) + (if last.nodeId == target then [last] else [])
  }

  lemma {:induction false} TowardAppend(a: seq<Connection>, b: seq<Connection>, target: string)
    ensures Toward(a + b, target) == Toward(a, target) + Toward(b, target)
    decreases |b|
  {
    if |b| > 0 {
      var front := b[..|b| - 1];
      assert (a + b)[..|a + b| - 1] == a + front;
      TowardAppend(a, front, target);
    } else {
      assert a + b == a;
    }
  }

  /** A list whose only connection to `target` sits at `j` filters down to that connection. */
  lemma {:induction false} TowardOnly(conns: seq<Connection>, target: string, j: int)
    requires OnlyConnectionTo(conns, target, j)
    ensures Toward(conns, target) == [conns[j]]
    decreases |conns|
  {
    var front, last := conns[..|conns| - 1], conns[|conns| - 1];
    if j == |conns| - 1 {
      TowardNone(front, target);
    } else {
      TowardOnly(front, target, j);
    }
  }

  /** A list without connections to `target` filters down to nothing. */
  lemma {:induction false} TowardNone(conns: seq<Connection>, target: string)
    requires forall k :: 0 <= k < |conns| ==> conns[k].nodeId != target
    ensures Toward(conns, target) == []
    decreases |conns|
  {
    if |conns| > 0 {
      TowardNone(conns[..|conns| - 1], target);
    }
  }

  /** The list with the availability of its first connection set to `v`. */
  function WithFirstAvailability(conns: seq<Connection>, v: bool): (r: seq<Connection>)
    ensures |r| == |conns|
    ensures |conns| > 0 ==> r[0] == conns[0].(isAvailable := v)
    ensures forall k :: 0 < k < |conns| ==> r[k] == conns[k]
  {
    if |conns| == 0 then conns else conns[0 := conns[0].(isAvailable := v)]
  }

  /** Filtering a list around one of its connections. */
  lemma TowardAround(front: seq<Connection>, y: Connection, back: seq<Connection>, c: string)
    ensures Toward(front + [y] + back, c) == Toward(front, c) + (if y.nodeId == c then [y] else []) + Toward(back, c)
  {
    TowardAppend(front + [y], back, c);
    assert (front + [y])[..|front|] == front;
  }

  /** Replacing one connection by another with the same target replaces it in that target's filtered list. */
  lemma TowardPatch(conns: seq<Connection>, j: int, x: Connection, c: string)
    requires 0 <= j < |conns| && x.nodeId == conns[j].nodeId
    ensures conns[j].nodeId != c ==> Toward(conns[j := x], c) == Toward(conns, c)
    ensures conns[j].nodeId == c ==> |Toward(conns[..j], c)| < |Toward(conns, c)|
    ensures conns[j].nodeId == c ==> Toward(conns, c)[|Toward(conns[..j], c)|] == conns[j]
    ensures conns[j].nodeId == c ==> Toward(conns[j := x], c) == Toward(conns, c)[|Toward(conns[..j], c)| := x]
  {
    var front, back := conns[..j], conns[j + 1..];
    assert Toward(conns, c) == Toward(front, c) + (if conns[j].nodeId == c then [conns[j]] else []) + Toward(back, c) by {
      assert conns == front + [conns[j]] + back;
      TowardAround(front, conns[j], back, c);
    }
    assert Toward(conns[j := x], c) == Toward(front, c) + (if x.nodeId == c then [x] else []) + Toward(back, c) by {
      assert conns[j := x] == front + [x] + back;
      TowardAround(front, x, back, c);
    }
    if conns[j].nodeId == c {
      var f, t := Toward(front, c), Toward(back, c);
      assert (f + [conns[j]] + t)[|f| := x] == f + [x] + t;
    }
  }

  /**
    Setting the first connection to `target` changes, among the connections to
    any node, at most the first connection to `target` itself.
   */
  lemma TowardSetFirst(conns: seq<Connection>, target: string, v: bool, c: string)
    ensures Toward(SetFirstAvailability(conns, target, v), c) ==
      if c == target then WithFirstAvailability(Toward(conns, c), v) else Toward(conns, c)
  {
    match FirstConnectionTo(conns, target)
    case None =>
      if c == target {
        TowardNone(conns, target);
      }
    case Some(j) =>
      assert SetFirstAvailability(conns, target, v) == conns[j := conns[j].(isAvailable := v)];
      TowardSetAt(conns, target, j, v, c);
  }

  /** `TowardSetFirst` once the first connection to `target` is known to sit at `j`. */
  lemma TowardSetAt(conns: seq<Connection>, target: string, j: int, v: bool, c: string)
    requires IsFirstTo(conns, target, j)
    ensures Toward(conns[j := conns[j].(isAvailable := v)], c) ==
      if c == target then WithFirstAvailability(Toward(conns, c), v) else Toward(conns, c)
  {
    TowardPatch(conns, j, conns[j].(isAvailable := v), c);
    if c == target {
      TowardNone(conns[..j], target);
    }
  }

  /** Setting the first availability on both of two agreeing lists keeps them agreeing. */
  lemma AgreeAllWithFirst(forward: seq<Connection>, reverse: seq<Connection>, v: bool)
    requires AgreeAll(forward, reverse)
    ensures AgreeAll(WithFirstAvailability(forward, v), WithFirstAvailability(reverse, v))
  {
  }

  /** Two lists of connections that agree position by position. */
  ghost predicate AgreeAll(forward: seq<Connection>, reverse: seq<Connection>)
  {
    && |forward| == |reverse|
    && forall k :: 0 <= k < |forward| ==> Agree(forward[k], reverse[k])
  }

  /**
    For every two distinct nodes, the connections from one to the other agree,
    in order, with those coming back: every parallel segment has agreeing
    directions, not only a single one.
   */
  ghost predicate Mirrored(g: Graph)
  {
    forall a, b :: a in g && b in g && a != b ==> AgreeAll(Toward(g[a].connections, b), Toward(g[b].connections, a))
  }

  /** A node's connections after an update: first the `from` half, then the `to` half. */
  lemma UpdatedConnections(g: Graph, from: string, to: string, v: bool, a: string)
    requires a in g
    ensures UpdateGraph(g, from, to, v)[a].connections ==
      var conns := if a == from then SetFirstAvailability(g[a].connections, to, v) else g[a].connections;
      if a == to then SetFirstAvailability(conns, from, v) else conns
  {
    var g1 := UpdateHalf(g, from, to, v);
    assert UpdateGraph(g, from, to, v) == UpdateHalf(g1, to, from, v);
  }

  /** Between two distinct nodes, an update touches only the first connection each way, and only for the updated pair. */
  lemma TowardAfterUpdate(g: Graph, from: string, to: string, v: bool, a: string, b: string)
    requires a in g && a != b
    ensures Toward(UpdateGraph(g, from, to, v)[a].connections, b) ==
      if (a == from && b == to) || (a == to && b == from) then WithFirstAvailability(Toward(g[a].connections, b), v)
      else Toward(g[a].connections, b)
  {
    UpdatedConnections(g, from, to, v, a);
    var conns := g[a].connections;
    var conns1 := if a == from then SetFirstAvailability(conns, to, v) else conns;
    if a == from {
      TowardSetFirst(conns, to, v, b);
    }
    if a == to {
      TowardSetFirst(conns1, from, v, b);
    }
  }

  /** An update keeps every two distinct nodes' connection lists in agreement. */
  lemma UpdateKeepsMirrored(g: Graph, from: string, to: string, v: bool)
    requires Mirrored(g)
    ensures Mirrored(UpdateGraph(g, from, to, v))
  {
    var g' := UpdateGraph(g, from, to, v);
    forall a, b | a in g' && b in g' && a != b
      ensures AgreeAll(Toward(g'[a].connections, b), Toward(g'[b].connections, a))
    {
      TowardAfterUpdate(g, from, to, v, a, b);
      TowardAfterUpdate(g, from, to, v, b, a);
      var forward, reverse := Toward(g[a].connections, b), Toward(g[b].connections, a);
      assert AgreeAll(forward, reverse);
      if (a == from && b == to) || (a == to && b == from) {
        AgreeAllWithFirst(forward, reverse, v);
      }
    }
  }

  /** A mirrored graph is synchronized: the single-segment invariant is the special case of one connection each way. */
  lemma MirroredIsSynchronized(g: Graph)
    requires Mirrored(g)
    ensures Synchronized(g)
  {
    forall a, b, i, j | SingleSegment(g, a, b, i, j)
      ensures Agree(g[a].connections[i], g[b].connections[j])
    {
      if a != b {
        TowardOnly(g[a].connections, b, i);
        TowardOnly(g[b].connections, a, j);
        assert AgreeAll(Toward(g[a].connections, b), Toward(g[b].connections, a));
        assert Agree(Toward(g[a].connections, b)[0], Toward(g[b].connections, a)[0]);
      }
    }
  }

  /**
    After closing a pair joined by at most one connection in each direction,
    no available connection leads directly between the two.
   */
  lemma ClosedSegmentHasNoHop(g: Graph, a: string, b: string)
    requires a in g ==> forall i, k :: 0 <= i < k < |g[a].connections| ==> g[a].connections[i].nodeId != b || g[a].connections[k].nodeId != b
    requires b in g ==> forall i, k :: 0 <= i < k < |g[b].connections| ==> g[b].connections[i].nodeId != a || g[b].connections[k].nodeId != a
    ensures forall u, i, w :: IsHop(UpdateGraph(g, a, b, false), u, i, w) ==> !(u == a && w == b) && !(u == b && w == a)
  {
    var g' := UpdateGraph(g, a, b, false);
    if a in g {
      forall i | 0 <= i < |g'[a].connections| && g'[a].connections[i].nodeId == b
        ensures !g'[a].connections[i].isAvailable
      {
        assert Targeted(g, a, b, a, i);
      }
    }
    if b in g {
      forall i | 0 <= i < |g'[b].connections| && g'[b].connections[i].nodeId == a
        ensures !g'[b].connections[i].isAvailable
      {
        assert Targeted(g, a, b, b, i);
      }
    }
  }
}

=== FILE: resource_directory.dfy ===
/**
  The campus resource directory's search: resources whose name, description
  or building contains the query (ignoring letter case) and whose category
  matches the selected one.
 */
module ResourceDirectory {
  import opened Optional
  import opened Strings

  datatype Category = Office | Service | Facility | Department

  datatype Contact = Contact(phone: Option<string>, email: Option<string>)

  /** A directory entry. */
  datatype Resource = Resource(id: string, name: string, category: Category, building: string,
                               floor: Option<int>, room: Option<string>, description: string,
                               contact: Option<Contact>, hours: Option<string>)

  /** The category selector's value that disables the category test. */
  const AllCategories: string := "all"

  /** A category's value in the selector. */
  function CategoryName(c: Category): (name: string)
    ensures name != AllCategories
  {
    match c
    case Office => "office"
    case Service => "service"
    case Facility => "facility"
    case Department => "department"
  }

  /** The query, lower-cased, occurs in the lower-cased name, description or building. */
  ghost predicate SearchHit(r: Resource, query: string)
  {
    var q := Lower(query);
    IsSubstring(q, Lower(r.name)) || IsSubstring(q, Lower(r.description)) || IsSubstring(q, Lower(r.building))
  }

  /** The resource is in the selected category, or every category is selected. */
  predicate CategoryHit(r: Resource, selected: string)
  {
    selected == AllCategories || CategoryName(r.category) == selected
  }

  /** The filter's test for one resource, as the page computes it. */
  function Keeps(r: Resource, query: string, selected: string): (keep: bool)
    ensures keep <==> SearchHit(r, query) && CategoryHit(r, selected)
  {
    var q := Lower(query);
    var matchesSearch := Includes(Lower(r.name), q) || Includes(Lower(r.description), q) || Includes(Lower(r.building), q);
    matchesSearch && CategoryHit(r, selected)
  }

  /**
    `filteredResources`: the resources that pass the test, in their original
    order, each as often as it occurs. The page shows how many there are out
    of the total.
   */
  function FilterResources(resources: seq<Resource>, query: string, selected: string): (shown: seq<Resource>)
    ensures |shown| <= |resources|
    ensures forall r :: r in shown <==> r in resources && SearchHit(r, query) && CategoryHit(r, selected)
    ensures forall r :: multiset(shown)[r] == if SearchHit(r, query) && CategoryHit(r, selected) then multiset(resources)[r] else 0
    ensures selected != AllCategories ==> forall r :: r in shown ==> CategoryName(r.category) == selected
    decreases |resources|
  {
    if |resources| == 0 then
      []
    else
      assert resources == [resources[0]] + resources[1..];
      var rest := FilterResources(resources[1..], query, selected);
      if Keeps(resources[0], query, selected) then [resources[0]] + rest else rest
  }

  /** `idx` places each element of `a` at a position of `b`, in increasing order. */
  ghost predicate Embeds<T>(a: seq<T>, b: seq<T>, idx: seq<nat>)
  {
    && |idx| == |a|
    && (forall k :: 0 <= k < |idx| ==> idx[k] < |b| && b[idx[k]] == a[k])
    && (forall k, l :: 0 <= k < l < |idx| ==> idx[k] < idx[l])
  }

  function Shift(idx: seq<nat>): (r: seq<nat>)
    ensures |r| == |idx|
    ensures forall k :: 0 <= k < |r| ==> r[k] == idx[k] + 1
  {
    seq(|idx|, k requires 0 <= k < |idx| => idx[k] + 1)
  }

  /** The shown resources are an order-preserving subsequence of all resources. */
  lemma {:induction false} FilterIsSubsequence(resources: seq<Resource>, query: string, selected: string)
    returns (idx: seq<nat>)
    ensures Embeds(FilterResources(resources, query, selected), resources, idx)
    decreases |resources|
  {
    if |resources| == 0 {
      idx := [];
    } else {
      var tail := resources[1..];
      var rest := FilterIsSubsequence(tail, query, selected);
      assert resources == [resources[0]] + tail;
      if Keeps(resources[0], query, selected) {
        idx := EmbedsKeep(resources[0], FilterResources(tail, query, selected), tail, rest);
      } else {
        idx := EmbedsSkip(resources[0], FilterResources(tail, query, selected), tail, rest);
      }
    }
  }

  /** An embedding survives putting one more element in front of both sequences. */
  lemma EmbedsKeep<T>(x: T, a: seq<T>, b: seq<T>, idx: seq<nat>) returns (idx': seq<nat>)
    requires Embeds(a, b, idx)
    ensures Embeds([x] + a, [x] + b, idx')
  {
    idx' := [0] + Shift(idx);
    forall k | 1 <= k < |idx'|
      ensures idx'[k] < |[x] + b| && ([x] + b)[idx'[k]] == ([x] + a)[k]
    {
      assert b[idx[k - 1]] == a[k - 1];
    }
  }

  /** An embedding survives putting one more element in front of the larger sequence. */
  lemma EmbedsSkip<T>(x: T, a: seq<T>, b: seq<T>, idx: seq<nat>) returns (idx': seq<nat>)
    requires Embeds(a, b, idx)
    ensures Embeds(a, [x] + b, idx')
  {
    idx' := Shift(idx);
    forall k | 0 <= k < |idx'|
      ensures idx'[k] < |[x] + b| && ([x] + b)[idx'[k]] == a[k]
    {
      assert b[idx[k]] == a[k];
    }
  }

  /** With an empty query and every category selected, nothing is filtered out. */
  lemma {:induction false} EmptyQueryKeepsEverything(resources: seq<Resource>)
    ensures FilterResources(resources, "", AllCategories) == resources
    decreases |resources|
  {
    if |resources| > 0 {
      var r := resources[0];
      SubstringReflexive(Lower(r.name));
      assert Lower("") == "";
      EmptyQueryKeepsEverything(resources[1..]);
    }
  }

  /** Only the lower-cased query matters: two queries equal but for letter case select the same resources. */
  lemma {:induction false} QueryCaseInsensitive(resources: seq<Resource>, query1: string, query2: string, selected: string)
    requires Lower(query1) == Lower(query2)
    ensures FilterResources(resources, query1, selected) == FilterResources(resources, query2, selected)
    decreases |resources|
  {
    if |resources| > 0 {
      QueryCaseInsensitive(resources[1..], query1, query2, selected);
    }
  }

  /** Typing the query in capitals changes nothing. */
  lemma UpperCaseQuerySameResult(resources: seq<Resource>, query: string, selected: string)
    ensures FilterResources(resources, Upper(query), selected) == FilterResources(resources, query, selected)
  {
    LowerOfUpper(query);
    QueryCaseInsensitive(resources, Upper(query), query, selected);
  }
}

=== FILE: security_log.dfy ===
/**
  The security-log endpoint's classifier: an activity type is suspicious when
  it contains one of four fixed patterns.
 */
module SecurityLog {
  import opened Strings

  /** The patterns, in the order the endpoint lists them. */
  const SuspiciousPatterns: seq<string> := [
    "screen_recording_detected",
    "rapid_navigation",
    "bulk_download_attempt",
    "unauthorized_access_attempt"
  ]

  /** Some pattern of `patterns` occurs in `s`. */
  ghost predicate ContainsAny(s: string, patterns: seq<string>)
  {
    exists k :: 0 <= k < |patterns| && IsSubstring(patterns[k], s)
  }

  /** `patterns.some(pattern => s.includes(pattern))`, scanning from the first pattern. */
  function AnyIncluded(s: string, patterns: seq<string>): (found: bool)
    ensures found <==> ContainsAny(s, patterns)
    decreases |patterns|
  {
    if |patterns| == 0 then
      false
    else if Includes(s, patterns[0]) then
      true
    else
      var rest := AnyIncluded(s, patterns[1..]);
      assert ContainsAny(s, patterns) <==> ContainsAny(s, patterns[1..]) by {
        if ContainsAny(s, patterns) {
          var k :| 0 <= k < |patterns| && IsSubstring(patterns[k], s);
          assert patterns[1..][k - 1] == patterns[k];
        }
        if ContainsAny(s, patterns[1..]) {
          var k :| 0 <= k < |patterns[1..]| && IsSubstring(patterns[1..][k], s);
          assert patterns[k + 1] == patterns[1..][k];
        }
      }
      rest
  }

  /** `detectSuspiciousActivity(activityType)`: some listed pattern occurs, case-sensitively, in the activity type. */
  function DetectSuspiciousActivity(activityType: string): (suspicious: bool)
    ensures suspicious <==> ContainsAny(activityType, SuspiciousPatterns)
  {
    AnyIncluded(activityType, SuspiciousPatterns)
  }

  /** Each listed pattern is itself flagged. */
  lemma PatternsAreFlagged(k: int)
    requires 0 <= k < |SuspiciousPatterns|
    ensures DetectSuspiciousActivity(SuspiciousPatterns[k])
  {
    SubstringReflexive(SuspiciousPatterns[k]);
  }

  /** Whatever contains a flagged string is flagged too. */
  lemma FlaggedIsMonotone(s: string, t: string)
    requires DetectSuspiciousActivity(s)
    requires IsSubstring(s, t)
    ensures DetectSuspiciousActivity(t)
  {
    var k :| 0 <= k < |SuspiciousPatterns| && IsSubstring(SuspiciousPatterns[k], s);
    SubstringTransitive(SuspiciousPatterns[k], s, t);
  }

  /** A string shorter than the shortest pattern (`rapid_navigation`, 16 characters) is never flagged, the empty one included. */
  lemma ShortNeverFlagged(s: string)
    requires |s| < 16
    ensures !DetectSuspiciousActivity(s)
  {
    forall k, i: nat | 0 <= k < |SuspiciousPatterns|
      ensures !OccursAt(SuspiciousPatterns[k], s, i)
    {
      assert |SuspiciousPatterns[k]| >= 16;
    }
  }

  /** Matching is case-sensitive: a string without lower-case letters is never flagged. */
  lemma NoLowerCaseNeverFlagged(s: string)
    requires forall i :: 0 <= i < |s| ==> !IsLower(s[i])
    ensures !DetectSuspiciousActivity(s)
  {
    forall k | 0 <= k < |SuspiciousPatterns|
      ensures !IsSubstring(SuspiciousPatterns[k], s)
    {
      var p := SuspiciousPatterns[k];
      assert IsLower(p[0]);
      FirstCharAbsent(p, s);
    }
  }

  /** The upper-case spelling of the first pattern is not flagged. */
  lemma UpperCaseRecordingNotFlagged()
    ensures !DetectSuspiciousActivity("SCREEN_RECORDING_DETECTED")
  {
    NoLowerCaseNeverFlagged("SCREEN_RECORDING_DETECTED");
  }
}

=== FILE: strings.dfy ===
/**
  String helpers shared by the security classifier and the resource directory:
  JavaScript's `String.prototype.includes` and an ASCII `toLowerCase`.
 */
module Strings {

  /** `p` occurs in `s` starting at position `i`. */
  predicate OccursAt(p: string, s: string, i: nat)
  {
    i + |p| <= |s| && s[i..i + |p|] == p
  }

  /** `p` occurs in `s` as a contiguous run of characters. */
  ghost predicate IsSubstring(p: string, s: string)
  {
    exists i: nat :: OccursAt(p, s, i)
  }

  /** `s.includes(p)`: a left-to-right search for `p` inside `s`. */
  function Includes(s: string, p: string): (found: bool)
    ensures found <==> IsSubstring(p, s)
    decreases |s|
  {
    if |p| > |s| then
      false
    else if s[..|p|] == p then
      assert OccursAt(p, s, 0);
      true
    else
      ShiftedSubstring(s, p);
      Includes(s[1..], p)
  }

  /** When `p` is not a prefix of `s`, the occurrences of `p` in `s` are those in `s[1..]`. */
  lemma ShiftedSubstring(s: string, p: string)
    requires |p| <= |s|
    requires s[..|p|] != p
    ensures IsSubstring(p, s) <==> IsSubstring(p, s[1..])
  {
    if IsSubstring(p, s) {
      var i: nat :| OccursAt(p, s, i);
      assert i != 0;
      assert s[1..][i - 1..i - 1 + |p|] == s[i..i + |p|];
      assert OccursAt(p, s[1..], i - 1);
    }
    if IsSubstring(p, s[1..]) {
      var i: nat :| OccursAt(p, s[1..], i);
      assert s[i + 1..i + 1 + |p|] == s[1..][i..i + |p|];
      assert OccursAt(p, s, i + 1);
    }
  }

  /** Containment of substrings is transitive. */
  lemma SubstringTransitive(a: string, b: string, c: string)
    requires IsSubstring(a, b) && IsSubstring(b, c)
    ensures IsSubstring(a, c)
  {
    var i: nat :| OccursAt(a, b, i);
    var j: nat :| OccursAt(b, c, j);
    forall k | 0 <= k < |a|
      ensures c[j + i + k] == a[k]
    {
      assert a[k] == b[i + k];
      assert b[i + k] == c[j + i + k];
    }
    assert c[j + i..j + i + |a|] == a;
    assert OccursAt(a, c, j + i);
  }

  /** A string is a substring of itself, and the empty string of every string. */
  lemma SubstringReflexive(s: string)
    ensures IsSubstring(s, s)
    ensures IsSubstring("", s)
  {
    assert s[0..0 + |s|] == s;
    assert OccursAt(s, s, 0);
    assert OccursAt("", s, 0);
  }

  /** A character that the first character of `p` never matches in `s` rules out every occurrence. */
  lemma FirstCharAbsent(p: string, s: string)
    requires |p| > 0
    requires forall k :: 0 <= k < |s| ==> s[k] != p[0]
    ensures !IsSubstring(p, s)
  {
    forall i: nat | i + |p| <= |s|
      ensures !OccursAt(p, s, i)
    {
      assert s[i..i + |p|][0] == s[i];
    }
  }

  predicate IsUpper(c: char)
  {
    'A' <= c <= 'Z'
  }

  predicate IsLower(c: char)
  {
    'a' <= c <= 'z'
  }

  /** ASCII case folding of one character; every other character is left alone. */
  function LowerChar(c: char): (r: char)
    ensures !IsUpper(r)
    ensures IsUpper(c) ==> IsLower(r) && r as int == c as int + 32
    ensures !IsUpper(c) ==> r == c
  {
    if IsUpper(c) then (c as int + 32) as char else c
  }

  function UpperChar(c: char): (r: char)
    ensures !IsLower(r)
    ensures IsLower(c) ==> IsUpper(r) && r as int == c as int - 32
    ensures !IsLower(c) ==> r == c
  {
    if IsLower(c) then (c as int - 32) as char else c
  }

  /** `toLowerCase`, restricted to ASCII letters. */
  function Lower(s: string): (r: string)
    ensures |r| == |s|
    ensures forall k :: 0 <= k < |r| ==> !IsUpper(r[k])
    ensures forall k :: 0 <= k < |r| ==> if IsUpper(s[k]) then r[k] as int == s[k] as int + 32 else r[k] == s[k]
  {
    seq(|s|, k requires 0 <= k < |s| => LowerChar(s[k]))
  }

  /** `toUpperCase`, restricted to ASCII letters. */
  function Upper(s: string): (r: string)
    ensures |r| == |s|
    ensures forall k :: 0 <= k < |r| ==> !IsLower(r[k])
    ensures forall k :: 0 <= k < |r| ==> if IsLower(s[k]) then r[k] as int == s[k] as int - 32 else r[k] == s[k]
  {
    seq(|s|, k requires 0 <= k < |s| => UpperChar(s[k]))
  }

  /** Lowering twice is lowering once. */
  lemma LowerIdempotent(s: string)
    ensures Lower(Lower(s)) == Lower(s)
  {
    forall k | 0 <= k < |s|
      ensures Lower(Lower(s))[k] == Lower(s)[k]
    {
      assert !IsUpper(Lower(s)[k]);
    }
  }

  /** Upper-casing first does not change what lower-casing gives. */
  lemma LowerOfUpper(s: string)
    ensures Lower(Upper(s)) == Lower(s)
  {
    forall k | 0 <= k < |s|
      ensures Lower(Upper(s))[k] == Lower(s)[k]
    {
      var c := s[k];
      if IsLower(c) {
        assert Upper(s)[k] as int == c as int - 32;
      } else if IsUpper(c) {
        assert Upper(s)[k] == c;
      }
    }
  }
}

=== FILE: virtual_tour.dfy ===
/**
  The virtual tour page's conversion of its flat location list into
  panorama-viewer nodes, each linked to its neighbours in list order.
 */
module VirtualTour {
  import opened Optional

  datatype HotspotKind = Info | Link

  /** A marker inside a panorama. */
  datatype Hotspot = Hotspot(pitch: real, yaw: real, kind: HotspotKind, text: string, targetId: Option<string>)

  /** A tour stop as listed in the locations file. */
  datatype Location = Location(id: string, name: string, imageUrl: string, description: string,
                               thumbnailUrl: Option<string>, hotspots: Option<seq<Hotspot>>)

  /** A navigation arrow to another node, drawn at the given yaw. */
  datatype NodeLink = NodeLink(nodeId: string, yaw: string)

  /** A stop of the viewer's tour. */
  datatype PanoramaNode = PanoramaNode(id: string, panorama: string, thumbnail: Option<string>, name: string,
                                       links: seq<NodeLink>, markers: Option<seq<Hotspot>>)

  /** Yaw of the arrow back to the previous location. */
  const BackYaw: string := "180deg"

  /** Yaw of the arrow on to the next location. */
  const ForwardYaw: string := "0deg"

  /** The arrows of the node at `index`: back to the previous location, then on to the next. */
  function NeighbourLinks(locations: seq<Location>, index: int): seq<NodeLink>
    requires 0 <= index < |locations|
  {
    (if index > 0 then [NodeLink(locations[index - 1].id, BackYaw)] else [])
    + (if index < |locations| - 1 then [NodeLink(locations[index + 1].id, ForwardYaw)] else [])
  }

  /** `locationsToNodes`: one node per location, carrying its fields and its neighbour arrows. */
  function LocationsToNodes(locations: seq<Location>): (nodes: seq<PanoramaNode>)
    ensures |nodes| == |locations|
    ensures forall i :: 0 <= i < |nodes| ==>
      && nodes[i].id == locations[i].id
      && nodes[i].panorama == locations[i].imageUrl
      && nodes[i].thumbnail == locations[i].thumbnailUrl
      && nodes[i].name == locations[i].name
      && nodes[i].markers == locations[i].hotspots
  {
    seq(|locations|, index requires 0 <= index < |locations| =>
      var loc := locations[index];
      PanoramaNode(loc.id, loc.imageUrl, loc.thumbnailUrl, loc.name, NeighbourLinks(locations, index), loc.hotspots))
  }

  /** Node `i` has an arrow at `yaw`. */
  ghost predicate HasLinkAt(node: PanoramaNode, yaw: string)
  {
    exists l :: l in node.links && l.yaw == yaw
  }

  /** The node at `i` has a back arrow exactly when it is not the first, and that arrow leads to the previous location. */
  lemma BackLink(locations: seq<Location>, i: int)
    requires 0 <= i < |locations|
    ensures HasLinkAt(LocationsToNodes(locations)[i], BackYaw) <==> i > 0
    ensures i > 0 ==> LocationsToNodes(locations)[i].links[0] == NodeLink(locations[i - 1].id, BackYaw)
  {
    var links := LocationsToNodes(locations)[i].links;
    if i == 0 {
      forall l | l in links ensures l.yaw != BackYaw {
        assert l.yaw == ForwardYaw;
        assert ForwardYaw[0] != BackYaw[0];
      }
    } else {
      assert links[0] in links;
    }
  }

  /** The node at `i` has a forward arrow exactly when it is not the last, and that arrow leads to the next location. */
  lemma ForwardLink(locations: seq<Location>, i: int)
    requires 0 <= i < |locations|
    ensures HasLinkAt(LocationsToNodes(locations)[i], ForwardYaw) <==> i < |locations| - 1
    ensures i < |locations| - 1 ==>
      LocationsToNodes(locations)[i].links[|LocationsToNodes(locations)[i].links| - 1] == NodeLink(locations[i + 1].id, ForwardYaw)
  {
    var links := LocationsToNodes(locations)[i].links;
    if i == |locations| - 1 {
      forall l | l in links ensures l.yaw != ForwardYaw {
        assert l.yaw == BackYaw;
        assert ForwardYaw[0] != BackYaw[0];
      }
    } else {
      assert links[|links| - 1] in links;
    }
  }

  /** Every node has one arrow per neighbour, so at most two, with the back arrow first; a lone location has none. */
  lemma LinkCount(locations: seq<Location>, i: int)
    requires 0 <= i < |locations|
    ensures |LocationsToNodes(locations)[i].links| == (if i > 0 then 1 else 0) + (if i < |locations| - 1 then 1 else 0)
    ensures |LocationsToNodes(locations)[i].links| <= 2
    ensures |LocationsToNodes(locations)[i].links| == 2 ==>
      LocationsToNodes(locations)[i].links[0].yaw == BackYaw && LocationsToNodes(locations)[i].links[1].yaw == ForwardYaw
    ensures |locations| == 1 ==> LocationsToNodes(locations)[i].links == []
  {
  }

  /** Node `i` has an arrow to node `j`. */
  ghost predicate LinksTo(nodes: seq<PanoramaNode>, i: int, j: int)
    requires 0 <= i < |nodes| && 0 <= j < |nodes|
  {
    exists l :: l in nodes[i].links && l.nodeId == nodes[j].id
  }

  ghost predicate DistinctIds(locations: seq<Location>)
  {
    forall i, j :: 0 <= i < j < |locations| ==> locations[i].id != locations[j].id
  }

  /** With distinct ids, node `i` links to node `j` exactly when they are neighbours in the list. */
  lemma LinksIffAdjacent(locations: seq<Location>, i: int, j: int)
    requires DistinctIds(locations)
    requires 0 <= i < |locations| && 0 <= j < |locations|
    ensures LinksTo(LocationsToNodes(locations), i, j) <==> (i - j == 1 || j - i == 1)
  {
    var nodes := LocationsToNodes(locations);
    var links := nodes[i].links;
    if i - j == 1 {
      assert links[0] in links;
    } else if j - i == 1 {
      assert links[|links| - 1] in links;
    } else {
      forall l | l in links ensures l.nodeId != nodes[j].id {
        assert (i > 0 && l.nodeId == locations[i - 1].id) || (i < |locations| - 1 && l.nodeId == locations[i + 1].id);
      }
    }
  }

  /** With distinct ids, the link relation is symmetric. */
  lemma LinksAreSymmetric(locations: seq<Location>, i: int, j: int)
    requires DistinctIds(locations)
    requires 0 <= i < |locations| && 0 <= j < |locations|
    ensures LinksTo(LocationsToNodes(locations), i, j) <==> LinksTo(LocationsToNodes(locations), j, i)
  {
    LinksIffAdjacent(locations, i, j);
    LinksIffAdjacent(locations, j, i);
  }
}
